=== FILE: README.md ===
# CrashPlan file system — a Dafny model

`CrashPlanFS` is a PyFilesystem2 file system. It shows the contents of a CrashPlan backup,
as recorded in CrashPlan's backup logs, as a directory tree. Every file is a remote
resource known only from its log lines. Changes go to a writable *transfer area*, another
file system that holds local copies. `getinfo` merges the two views: the remote one comes
from the latest log line for a path, and the local copy wins only when `show_local` is set
and the copy is strictly newer. At start-up a garbage collection removes from the transfer
area every entry the log already has at least as recent.

The model covers:

- the log filter `getLinesFor`;
- the remote lookup `_getinfo_remote`, including the `%m/%d/%y %I:%M%p` timestamps and
  their conversion to seconds since the epoch;
- the root prefix and `_get_prefixed_path`;
- the merged `getinfo`, `isdir`, `listdir`, `makedir`, the checks of `openbin`, `remove`
  and `removedir`;
- `_collect_garbage`;
- the constructor without `create`.

Modules:

- `Wrappers`: `Option`, `Result` and the file-system errors.
- `Text`: Python 2's `str.split()`, `startswith`, `in` and `int()`.
- `Paths`: the `fs.path` helpers, `normpath` and the prefix.
- `Timestamps`: `strptime` and the epoch.
- `CrashPlanLog`: the log lines and the remote lookup.
- `Transfer`: the transfer area. It is a class over a map from absolute paths to entries,
  and it keeps the invariant that every entry hangs below a directory.
- `CrashPlanFS`: the file system. It is a class whose methods change the transfer area;
  the pure lookups are functions beside it.

Two behaviours of the code are easy to miss:

- A malformed log line is not skipped when it is the entry that decides a lookup. That
  entry is the last exact match or, when there is none, the last qualifying line. Its date
  and time go through `strptime`, and for an exact match its directory flag goes through
  `int()`; either raises ValueError, which reaches the caller of `getinfo`, `listdir` and
  the constructor (`CrashPlanLog.DecodeEntry`, `CrashPlanLog.GetInfoRemoteLatest`,
  `CrashPlanFS.GetInfoCases`). Any other qualifying line is never parsed, so its date,
  time and flag do no harm. A non-ASCII byte is another matter (see "## Left out").
- Garbage collection is not best-effort. The first `remove` that fails aborts the removal
  loop and the constructor (`CrashPlanFS.CrashPlanFS.RemovePaths`). A ValueError from the
  log aborts the walk before anything is removed (`CrashPlanFS.CrashPlanFS.CollectSynced`).

The garbage collection as written also queues directories, which the transfer area refuses
to `remove` (see "## Findings"). `CrashPlanFS.CrashPlanFS.CollectGarbage` models it as
written. The constructor model (`CrashPlanFS.CrashPlanFS.Open`) uses the corrected
collection `CrashPlanFS.CrashPlanFS.CollectSyncedFiles`, which removes in-sync files only.

## Model

| member | source | states |
|---|---|---|
| `CrashPlanLog.GetLinesFor` | src/fs_crashplanfs/crashplan.py:95-100 | The result holds exactly the lines of the log that qualify for `s`: every returned line is a qualifying log line, every qualifying log line is returned, and there are no more of them than lines. |
| `CrashPlanLog.QualifiesWithoutSubstringTest` | src/fs_crashplanfs/crashplan.py:96-99 | The `s in l` pre-filter never decides anything. A line qualifies exactly when it starts with `I `, has more than six fields, has a 32-character field 4 and has a field 6 starting with `s`. |
| `CrashPlanLog.GetLinesForAppend` | src/fs_crashplanfs/crashplan.py:95-100 | Filtering two parts of a log one after the other gives the filter of the whole log, in log order. |
| `CrashPlanLog.LastOfLinesFor` | src/fs_crashplanfs/crashplan.py:163-165 | The filtered list is empty exactly when no line of the log qualifies. Otherwise its last element is the latest qualifying line of the log. |
| `CrashPlanLog.ExactMatches` | src/fs_crashplanfs/crashplan.py:161 | The exact matches are exactly the qualifying lines whose path field is the looked-up path: every returned line is such a line, and every such line is returned. |
| `CrashPlanLog.LastOfExactMatches` | src/fs_crashplanfs/crashplan.py:161-168 | There are no exact matches exactly when no log line qualifies with path field equal to the path. Otherwise the last one is the latest such line of the log. |
| `CrashPlanLog.DecodeEntry` | src/fs_crashplanfs/crashplan.py:163-188 | The info is named after the last piece of the path and is a directory iff there was no exact match or field 5 reads as 1. Its time is the epoch value of fields 1 and 2. It fails, only with ValueError, exactly when the time, or for an exact match field 5, cannot be read. |
| `CrashPlanLog.GetInfoRemote` | src/fs_crashplanfs/crashplan.py:153-158 | The lookup fails only with ResourceNotFound or ValueError. |
| `CrashPlanLog.GetInfoRemoteLatest` | src/fs_crashplanfs/crashplan.py:153-188 | The lookup, stated on the log itself, has three cases. The latest line naming the path exactly decides; failing that, the latest line below it makes the path a directory; failing that, ResourceNotFound. |
| `CrashPlanLog.GetInfoRemoteNotFound` | src/fs_crashplanfs/crashplan.py:156-158 | ResourceNotFound is returned exactly when no line of the log qualifies for the prefixed path. |
| `CrashPlanLog.LogLineQualifies` | src/fs_crashplanfs/crashplan.py:95-100 | A line written in the log's own layout qualifies for its own path. |
| `CrashPlanLog.LatestLineWins` | src/fs_crashplanfs/crashplan.py:161-186 | After any log, appending a line for a path makes the lookup return exactly that line's name, directory flag and time. |
| `CrashPlanLog.LineBelowReadsAsDirectory` | src/fs_crashplanfs/crashplan.py:163-166 | A log with one line for `q` makes every proper string prefix of `q` an intermediate directory, carrying that line's time. |
| `CrashPlanLog.SiblingPrefixReadsAsDirectory` | src/fs_crashplanfs/crashplan.py:99 | The path test compares text, not path pieces. With only the file `/a/bc` logged, `/a/b` is reported as a directory named `b`. |
| `Text.FieldsAreWords` | src/fs_crashplanfs/crashplan.py:97 | Every field of `split()` is non-empty and holds no whitespace. |
| `Text.FieldsOfJoin` | src/fs_crashplanfs/crashplan.py:183 | `split()` of blank-joined non-empty words gives the words back. |
| `Text.FieldPrefixIsContained` | src/fs_crashplanfs/crashplan.py:96-99 | A prefix of any field of a line is a substring of the line. |
| `Text.ParseIntIsOne` | src/fs_crashplanfs/crashplan.py:169 | `int(f) == 1` holds exactly when `f` is a `1`, with an optional `+` and leading zeros. |
| `Text.FindChar` | src/fs_crashplanfs/crashplan.py:184 | The index found holds the character and no earlier index does; `None` means the character is absent. The `strptime` model splits on the separators this way. |
| `Timestamps.ParseTimestamp` | src/fs_crashplanfs/crashplan.py:184 | A parsed time is a valid calendar minute in the years 1969 to 2068 (the `%y` pivot). |
| `Timestamps.ParseFormatRoundTrip` | src/fs_crashplanfs/crashplan.py:183-184 | Parsing a date and time written the way the log writes them gives the same minute back. |
| `Timestamps.EpochSecondsOrder` | src/fs_crashplanfs/crashplan.py:185 | Seconds since the epoch order minutes chronologically, and distinct minutes get distinct values. So the `>=` and `>` tests on `modified` compare times. |
| `Timestamps.FirstTestLogTime` | tests/test_crashplanfs.py:48-53 | `08/21/18 12:14AM` reads as 2018-08-21 00:14 UTC, 1534810440 seconds. |
| `Timestamps.SecondTestLogTime` | tests/test_crashplanfs.py:55-58 | `08/23/18 02:45PM` reads as 2018-08-23 14:45 UTC, 1535035500 seconds. |
| `Paths.ComputePrefixOfNormal` | src/fs_crashplanfs/crashplan.py:125 | A root `dir_path` in normal form `/a/b` gives the prefix `a/b`. |
| `Paths.PrefixHasNoOuterSlash` | src/fs_crashplanfs/crashplan.py:125 | The prefix never starts or ends with a slash. |
| `Paths.PrefixedPathInPrefix` | src/fs_crashplanfs/crashplan.py:197-199 | Every prefixed path lies under the root directory in the sense of `isparent`. |
| `Paths.DirnameBasename` | src/fs_crashplanfs/crashplan.py:176 | An absolute path is its `dirname`, a slash unless that is the root, and its slash-free last piece. |
| `Paths.ChildSegment` | src/fs_crashplanfs/crashplan.py:268 | The child name is slash-free. When it is not empty, it is the text right after `forcedir(dir)`, and a slash or the end of the path follows it. |
| `Paths.IsParentOfChild` | src/fs_crashplanfs/crashplan.py:267 | Whatever follows `forcedir(dir)` lies under `dir` for `isparent`. |
| `Paths.ChildSegmentOfChild` | src/fs_crashplanfs/crashplan.py:268 | For a path `dir/name/...`, the child name taken is `name`. |
| `Transfer.ListLocal` | src/fs_crashplanfs/crashplan.py:262 | The transfer area's `listdir` succeeds exactly for the root and its directories, and then lists exactly the names of the entries directly inside. It raises ResourceNotFound for a missing path and DirectoryExpected for a file. |
| `Transfer.MissingDirs` | src/fs_crashplanfs/crashplan.py:284 | `makedirs` creates only absent, non-root paths. It fails only with DirectoryExpected. |
| `Transfer.MissingDirsHang` | src/fs_crashplanfs/crashplan.py:284 | Every created directory hangs below the root, an existing directory or another created one, and the path itself is created. |
| `Transfer.MakeDirsKeepsTree` | src/fs_crashplanfs/crashplan.py:284 | Adding the created directories keeps every entry below a directory. |
| `Transfer.TransferArea.constructor` | src/fs_crashplanfs/crashplan.py:136 | A fresh transfer area is empty. |
| `Transfer.TransferArea.MakeDirs` | src/fs_crashplanfs/crashplan.py:284 | It raises DirectoryExists for an existing directory and DirectoryExpected when the path or its nearest existing ancestor is a file, and then nothing changes. Otherwise the new map is the old one plus exactly the path and its missing ancestors, as directories stamped `now`. |
| `Transfer.TransferArea.Remove` | src/fs_crashplanfs/crashplan.py:334 | Only a file present locally is removed, and nothing else changes. A missing path raises ResourceNotFound and a directory FileExpected. |
| `Transfer.TransferArea.RemoveDir` | src/fs_crashplanfs/crashplan.py:346 | Only an empty local directory is removed, and never the root. The errors are RemoveRootError for the root, ResourceNotFound for a missing path, DirectoryExpected for a file and DirectoryNotEmpty for a directory with children, and on error nothing changes. |
| `CrashPlanFS.GetInfoAt` | src/fs_crashplanfs/crashplan.py:204-247 | With the validated path the root is always a directory named `""`. `getinfo` fails only with ResourceNotFound or ValueError. An answer from the log always carries a modification time, and one from the transfer area carries it exactly when the caller asked for the `details` namespace. |
| `CrashPlanFS.GetInfo` | src/fs_crashplanfs/crashplan.py:204-247 | The same for a path already in normal form and no extra namespaces: the root is a directory named `""`, and the only errors are ResourceNotFound and ValueError. |
| `CrashPlanFS.GetInfoCases` | src/fs_crashplanfs/crashplan.py:226-247 | The merge decision table, with the log asked for the path as given and the transfer area for the validated path: when `getinfo` fails and with which error, when the local info is shown (`show_local`, present locally, strictly newer or no remote answer) and that it then carries a time only with the `details` namespace, and that otherwise the remote info is returned. |
| `CrashPlanFS.TransferAreaHiddenWithoutShowLocal` | src/fs_crashplanfs/crashplan.py:237-247 | Without `show_local`, the transfer area's contents never change what `getinfo` answers. |
| `CrashPlanFS.AbsentLocallyIsRemote` | src/fs_crashplanfs/crashplan.py:237-238 | A resource absent from the transfer area is answered from the log alone. |
| `CrashPlanFS.EqualTimesFavourRemote` | src/fs_crashplanfs/crashplan.py:240-245 | With equal modification times the log's info is returned, even with `show_local`. |
| `CrashPlanFS.IsDirAt` | src/fs_crashplanfs/crashplan.py:146 | `isdir` is true exactly when `getinfo` answers with a directory. ResourceNotFound reads as false and only a ValueError escapes. |
| `CrashPlanFS.CheckedIsDir` | src/fs_crashplanfs/crashplan.py:146 | `isdir` of a path as given: IllegalBackReference exactly when it climbs above the root, otherwise `isdir` of its validated form; no other error than ValueError. |
| `CrashPlanFS.BackReferenceToRootIsDir` | src/fs_crashplanfs/crashplan.py:125-147 | `/a/..` gives the empty prefix and validates to the root, so it is a directory for every log and transfer area. |
| `Paths.ValidatePath` | src/fs_crashplanfs/crashplan.py:206 | Validation succeeds exactly when `normpath` does and always gives an absolute path. |
| `Paths.ValidateBackToRoot` | src/fs_crashplanfs/crashplan.py:206 | `/a/..` validates to `/`, and its prefix is empty. |
| `CrashPlanFS.IsDir` | src/fs_crashplanfs/crashplan.py:277 | `isdir` is true exactly when `getinfo` answers with a directory. ResourceNotFound reads as false and only a ValueError escapes. |
| `CrashPlanFS.ChildNames` | src/fs_crashplanfs/crashplan.py:264-269 | The remote children are exactly the non-empty first pieces after `path/` of the lines below `path`. |
| `CrashPlanFS.CrashPlanFS.ChildrenIn` | src/fs_crashplanfs/crashplan.py:264-269 | The loop over the qualifying lines collects exactly those children. |
| `CrashPlanFS.CrashPlanFS.ListDir` | src/fs_crashplanfs/crashplan.py:252-271 | `listdir` returns the errors of `getinfo`, or DirectoryExpected for a file. Otherwise it returns the log's children, joined with the transfer area's listing when `show_local` is set and the directory exists locally. |
| `CrashPlanFS.ListingOfDirectory` | src/fs_crashplanfs/crashplan.py:260-271 | A successful listing holds every child the log names and nothing but those and, with `show_local`, the transfer area's children. With `show_local` and the directory present locally, every child in the transfer area is listed. Without `show_local` it is exactly the log's children. |
| `CrashPlanFS.LoggedChildIsListed` | src/fs_crashplanfs/crashplan.py:264-269 | Every resource the log records at `path/name/...` makes `name` a child of `path`. |
| `CrashPlanFS.ListedNameIsLogged` | src/fs_crashplanfs/crashplan.py:264-269 | Every child the log gives is a non-empty, slash-free piece that follows `path/` in a qualifying log line. |
| `CrashPlanFS.OpenBinCheck` | src/fs_crashplanfs/crashplan.py:293-327 | Without create: the error of `getinfo` passes through, a directory is FileExpected, and a file `getinfo` finds passes. With create: a failing parent lookup passes its error (ResourceNotFound or ValueError) through; then an existing target is FileExists when exclusive, checked before FileExpected for a directory; a ValueError for the target passes through; with create the call passes exactly when the parent lookup succeeds and the target is absent or a non-exclusive existing file. |
| `CrashPlanFS.CreateBelowFilePasses` | src/fs_crashplanfs/crashplan.py:299-305 | The parent check of a create asks only that the parent exists, so creating `/f/x` below a local file `/f` passes. |
| `CrashPlanFS.CrashPlanFS.MakeDir` | src/fs_crashplanfs/crashplan.py:273-291 | ResourceNotFound unless the parent is a directory. An existing resource is DirectoryExists, or with `recreate` is accepted when it is a directory and rejected with DirectoryExpected when it is a file. A resource `getinfo` cannot find is handed to the transfer area's `makedirs`: a hidden local directory gives DirectoryExists, a hidden local file or file ancestor gives DirectoryExpected, and otherwise the new map is the old one plus exactly the path and its missing ancestors, stamped `now`. Afterwards `getinfo` shows it as a local directory with `show_local` and still reports it missing without. |
| `CrashPlanFS.CrashPlanFS.Remove` | src/fs_crashplanfs/crashplan.py:329-334 | `getinfo` must find a file. Only the transfer area's copy is removed, so a file known only to the log gives ResourceNotFound. After a removal `getinfo` answers from the log alone. |
| `CrashPlanFS.CrashPlanFS.RemoveDir` | src/fs_crashplanfs/crashplan.py:336-346 | It raises RemoveRootError for `/`, the errors of `getinfo`, DirectoryExpected for a file and DirectoryNotEmpty for a non-empty listing. When the listing is empty, the transfer area's `removedir` decides: ResourceNotFound for a directory known only to the log, DirectoryExpected for a local file, DirectoryNotEmpty for a local directory whose children are hidden. Only an empty local directory is removed, and nothing else changes. |
| `CrashPlanFS.Garbage` | src/fs_crashplanfs/crashplan.py:363-375 | The walk selects exactly the entries, files and directories alike, that the log has at least as recent. It fails with ValueError exactly when the lookup of some entry raises one. |
| `CrashPlanFS.CrashPlanFS.CollectSynced` | src/fs_crashplanfs/crashplan.py:365-375 | The walk over the transfer area computes that selection. |
| `CrashPlanFS.CrashPlanFS.RemovePaths` | src/fs_crashplanfs/crashplan.py:377-378 | Removing selected files removes exactly them. One directory among them makes the loop fail with FileExpected, and then only selected entries have gone. |
| `CrashPlanFS.CrashPlanFS.CollectGarbage` | src/fs_crashplanfs/crashplan.py:363-378 | A ValueError changes nothing. A selection without directories is removed. A selection holding a directory fails with FileExpected. Only selected entries ever disappear, and the entries that remain are unchanged. |
| `CrashPlanFS.SyncedDirectoryIsGarbage` | src/fs_crashplanfs/crashplan.py:366-378 | A local directory `/d` no newer than a logged file `/d/f` is selected, so the collection fails. |
| `CrashPlanFS.GarbageFiles` | src/fs_crashplanfs/crashplan.py:373-375 | The intended selection is the in-sync files only, and it fails exactly when the full selection does. |
| `CrashPlanFS.CrashPlanFS.CollectSyncedFiles` | src/fs_crashplanfs/crashplan.py:373-378 | The corrected collection removes exactly the in-sync files and fails only on a ValueError from the log. |
| `CrashPlanFS.CrashPlanFS.constructor` | src/fs_crashplanfs/crashplan.py:117-126 | A file system holds its log lines, prefix, `show_local` flag and transfer area. |
| `CrashPlanFS.CrashPlanFS.CheckRootAndCollect` | src/fs_crashplanfs/crashplan.py:141-150 | `dir_path`, validated as `isdir` validates it, must be a directory, else CreateFailed; IllegalBackReference or ValueError pass through. Then the corrected garbage collection runs, and it succeeds exactly when the log raises no ValueError for any entry. On success exactly the in-sync files have been removed. |
| `CrashPlanFS.CrashPlanFS.Open` | src/fs_crashplanfs/crashplan.py:113-151 | A `dir_path` with a `..` above the root is IllegalBackReference. Otherwise, with the prefix emptied, `dir_path` must be a directory by `isdir`, which answers for the root and the transfer area on the validated path and asks the log with the path as given; and the corrected collection must succeed, which removes exactly the in-sync files. The new file system then has the prefix of `dir_path` and shares the given log and transfer area. |

## Left out

- File contents and the file objects `openbin` returns (`CrashPlanFile`, its factory and
  its I/O) are left out. `CrashPlanFS.OpenBinCheck` models only the checks before the file
  object is made.
- The `Mode` string parsing of `openbin` is left out. Its `create` and `exclusive` flags
  are parameters.
- Reading the log files from disk, and the CreateFailed raised when that fails, are left
  out. The lines of the log are a parameter.
- Choosing the transfer area when none is given is left out: the `commonprefix` of the
  walked files, `open_fs` of `_local_fs_root`, the temporary file system, and its `atexit`
  clean-up. The transfer area is a parameter.
- The constructor with `create=True` is left out, because it calls the inherited
  `makedirs` of PyFilesystem2's base class, which is not part of this model.
- `validatepath` is modelled only for the `dir_path` of the constructor
  (`CrashPlanFS.CheckedIsDir`). The operations take their paths as already absolute and
  normalised, and the invalid-character and length checks are left out.
- Log lines are taken to be ASCII. In Python 2, `s in l` in `getLinesFor` compares a
  `unicode` path with a byte-string log line, which decodes the line as ASCII. A single log
  line with a non-ASCII byte therefore makes every `getLinesFor` raise UnicodeDecodeError, a
  ValueError. That includes every `getinfo`, `listdir` and garbage-collection lookup. The
  model never raises there.
- `check()` of a closed file system is left out, because closing is not modelled.
- `setinfo`, `geturl`, `opendir` and the `SubFS` that `makedir` returns are left out. They
  only delegate or wrap.
- The `access` namespace (fixed permissions 0o755) and the `details.type` field are left
  out. The model keeps name, kind and modification time. Of the `namespaces` argument of
  `getinfo` only whether it holds `details` is modelled, since that alone decides whether a
  transfer-area answer has a modification time; the other namespaces are not.
- Modification times are whole seconds. Log times are whole minutes. Sub-second and
  floating-point times of the transfer area are not modelled, and a local entry always has a
  modification time.
- Unicode whitespace in `split()` is not modelled. Only the ASCII whitespace of Python 2's
  byte strings is.
- `listdir` returns a set. The order of Python's list is not modelled.
- The walk order of `_collect_garbage` is not modelled. `CrashPlanFS.CrashPlanFS.RemovePaths`
  therefore does not say which files have gone before a failing `remove`.
- `removedir` checks emptiness with `isempty`, which also looks up the first child through
  `scandir`. That extra lookup is left out: the model uses the listing alone.
- The transfer area is modelled by the documented behaviour of PyFilesystem2's `exists`,
  `listdir`, `makedirs`, `remove`, `removedir` and walk. The code of those calls is not
  part of this model.
- `CrashPlanFS.GetInfo` states only the root case and the possible errors in its own
  contract. The full decision table is the lemma `CrashPlanFS.GetInfoCases`, whose case
  `given == path` without `details` is `CrashPlanFS.GetInfo`.

## Findings

| source | as written | input that shows it | evidently intended | confidence | as-written member | corrected member |
|---|---|---|---|---|---|---|
| src/fs_crashplanfs/crashplan.py:363-378 | The walk over the transfer area yields directories as well as files. Every entry the log has at least as recent is queued, and each is passed to the transfer area's `remove`, which raises FileExpected for a directory. This aborts the constructor. | A transfer area holding a directory `/d` stamped no later than a logged file `/d/f`: the log reports `/d` as an intermediate directory with that file's time. | Remove only the files in sync, as the comment "Remove files in sync" says, and keep directories. | medium, not executed | `CrashPlanFS.CrashPlanFS.CollectGarbage`, `CrashPlanFS.SyncedDirectoryIsGarbage` | `CrashPlanFS.CrashPlanFS.CollectSyncedFiles` |

=== FILE: CrashPlanFS.dfy ===
/** The CrashPlan file system: a read-only view of the backup log merged with a
    writable transfer area (src/fs_crashplanfs/crashplan.py:104-378). Paths handed to
    the operations are taken as already validated: absolute and normalised. */
module CrashPlanFS {
  import opened Wrappers
  import opened Text
  import opened Paths
  import opened Timestamps
  import opened CrashPlanLog
  import opened Transfer

  /** Where an answer of `getinfo` comes from. */
  datatype Origin = Root | Remote | Local

  /** The `basic` namespace and the modification time of an `Info`; the time is `None`
      when the `details` namespace was not filled in. */
  datatype Info = Info(name: string, isDir: bool, modified: Option<int>, origin: Origin)

  /** The fixed answer for `/` (crashplan.py:208-224): a directory named `""`. */
  const RootInfo := Info("", true, None, Root)

  function FromRemote(ri: RemoteInfo): Info {
    Info(ri.name, ri.isDir, Some(ri.modified), Remote)
  }

  /** The transfer area's own `getinfo` with the caller's namespaces: the time is there
      only when they include `details`. */
  function FromLocal(path: string, e: Entry, details: bool): Info {
    Info(Basename(path), e.isDir, if details then Some(e.modified) else None, Local)
  }

  /** `local_is_newer`: there is no remote answer, or the local copy is strictly newer. */
  predicate LocalIsNewer(remote: Result<RemoteInfo, FsError>, e: Entry) {
    remote.Err? || e.modified > remote.value.modified
  }

  /** `getinfo(given, namespaces)`, where `path` is `given` after `validatepath` and
      `details` says whether `namespaces` holds `details`: the root is answered directly; a
      resource absent from the transfer area gets the log's answer; one present there is
      shown from the transfer area when `show_local` is set and the local copy is newer, and
      otherwise gets the log's answer or ResourceNotFound. The root test and the transfer
      area see `path`, the log lookup sees `given` as it was passed in. A ValueError from the
      log always passes through. The log's answer always carries its time, since the lookup
      adds `details`; the transfer area's only when the caller asked for it. */
  function GetInfoAt(lines: seq<string>, prefix: string, showLocal: bool, local: map<string, Entry>,
                     given: string, path: string, details: bool): (r: Result<Info, FsError>)
    ensures path == "/" ==> r == Ok(RootInfo)
    ensures r.Err? ==> r.error == ResourceNotFound || r.error == ValueError
    ensures r.Ok? && r.value.origin == Remote ==> r.value.modified.Some?
    ensures r.Ok? && r.value.origin == Local ==> (r.value.modified.Some? <==> details)
  {
    if path == "/" then Ok(RootInfo)
    else
      var existsLocally := path in local;
      var remote := GetInfoRemote(lines, prefix, given);
      if remote.Err? && (remote.error != ResourceNotFound || !existsLocally) then Err(remote.error)
      else if !existsLocally then Ok(FromRemote(remote.value))
      else if showLocal && LocalIsNewer(remote, local[path]) then Ok(FromLocal(path, local[path], details))
      else if remote.Ok? then Ok(FromRemote(remote.value))
      else Err(ResourceNotFound)
  }

  /** `getinfo(path)` on a path already in normal form, with no extra namespaces: what
      every operation below passes (they read only the kind of the answer). */
  function GetInfo(lines: seq<string>, prefix: string, showLocal: bool, local: map<string, Entry>,
                   path: string): (r: Result<Info, FsError>)
    ensures path == "/" ==> r == Ok(RootInfo)
    ensures r.Err? ==> r.error == ResourceNotFound || r.error == ValueError
  {
    GetInfoAt(lines, prefix, showLocal, local, path, path, false)
  }

  /** The decision table of `getinfo` for a path other than the root: the log is asked with
      the path as given, the transfer area with the validated one. */
  lemma GetInfoCases(lines: seq<string>, prefix: string, showLocal: bool, local: map<string, Entry>,
                     given: string, path: string, details: bool)
    requires path != "/"
    ensures var r := GetInfoAt(lines, prefix, showLocal, local, given, path, details);
      var remote := GetInfoRemote(lines, prefix, given);
      && (r.Err? <==> remote == Err(ValueError) || (remote.Err? && !(showLocal && path in local)))
      && (r.Err? ==> r.error == remote.error)
      && (r.Ok? && r.value.origin == Local <==>
            remote != Err(ValueError) && showLocal && path in local && LocalIsNewer(remote, local[path]))
      && (r.Ok? && r.value.origin == Local ==> r.value == FromLocal(path, local[path], details))
      && (r.Ok? && r.value.origin != Local ==> remote.Ok? && r.value == FromRemote(remote.value))
  {
  }

  /** Without `show_local` the transfer area never changes what `getinfo` answers. */
  lemma TransferAreaHiddenWithoutShowLocal(lines: seq<string>, prefix: string, local: map<string, Entry>,
                                           path: string)
    ensures GetInfo(lines, prefix, false, local, path) == GetInfo(lines, prefix, false, map[], path)
  {
  }

  /** A resource absent from the transfer area is answered from the log alone. */
  lemma AbsentLocallyIsRemote(lines: seq<string>, prefix: string, showLocal: bool,
                              local: map<string, Entry>, path: string)
    requires path !in local
    ensures GetInfo(lines, prefix, showLocal, local, path) == GetInfo(lines, prefix, showLocal, map[], path)
  {
  }

  /** Equal modification times favour the log: the local copy must be strictly newer. */
  lemma EqualTimesFavourRemote(lines: seq<string>, prefix: string, local: map<string, Entry>, path: string)
    requires path != "/" && path in local
    requires GetInfoRemote(lines, prefix, path).Ok?
    requires GetInfoRemote(lines, prefix, path).value.modified == local[path].modified
    ensures GetInfo(lines, prefix, true, local, path) == Ok(FromRemote(GetInfoRemote(lines, prefix, path).value))
  {
  }

  /** `isdir(given)`, `path` being `given` after `validatepath`: `getinfo` answered with a
      directory; ResourceNotFound reads as false and a ValueError passes through. */
  function IsDirAt(lines: seq<string>, prefix: string, showLocal: bool, local: map<string, Entry>,
                   given: string, path: string): (r: Result<bool, FsError>)
    ensures r.Err? <==> GetInfoAt(lines, prefix, showLocal, local, given, path, false) == Err(ValueError)
    ensures r.Err? ==> r.error == ValueError
    ensures r == Ok(true) <==>
      var info := GetInfoAt(lines, prefix, showLocal, local, given, path, false); info.Ok? && info.value.isDir
  {
    match GetInfoAt(lines, prefix, showLocal, local, given, path, false)
    case Ok(info) => Ok(info.isDir)
    case Err(e) => if e == ResourceNotFound then Ok(false) else Err(e)
  }

  /** `isdir(path)` on a path already in normal form. */
  function IsDir(lines: seq<string>, prefix: string, showLocal: bool, local: map<string, Entry>,
                 path: string): (r: Result<bool, FsError>)
    ensures r.Err? <==> GetInfo(lines, prefix, showLocal, local, path) == Err(ValueError)
    ensures r.Err? ==> r.error == ValueError
    ensures r == Ok(true) <==>
      GetInfo(lines, prefix, showLocal, local, path).Ok? && GetInfo(lines, prefix, showLocal, local, path).value.isDir
  {
    IsDirAt(lines, prefix, showLocal, local, path, path)
  }

  /** `isdir(given)` including its `validatepath`: IllegalBackReference when the path
      climbs above the root, otherwise `isdir` of the validated path. */
  function CheckedIsDir(lines: seq<string>, prefix: string, showLocal: bool, local: map<string, Entry>,
                        given: string): (r: Result<bool, FsError>)
    ensures r == Err(IllegalBackReference) <==> ValidatePath(given).None?
    ensures r.Err? ==> r.error == IllegalBackReference || r.error == ValueError
    ensures ValidatePath(given).Some? ==> r == IsDirAt(lines, prefix, showLocal, local, given, ValidatePath(given).value)
  {
    match ValidatePath(given)
    case None => Err(IllegalBackReference)
    case Some(path) => IsDirAt(lines, prefix, showLocal, local, given, path)
  }

  /** A root written with a back reference, such as `/a/..`, validates to `/` and so is a
      directory whatever the log and the transfer area hold. */
  lemma BackReferenceToRootIsDir(lines: seq<string>, showLocal: bool, local: map<string, Entry>)
    ensures ValidatePath("/a/..") == Some("/") && ComputePrefix("/a/..") == Some("")
    ensures CheckedIsDir(lines, "", showLocal, local, "/a/..") == Ok(true)
  {
    ValidateBackToRoot();
  }

  /** A log line whose path lies below `p` and names something after `p/`. */
  predicate Contributes(p: string, l: string)
    requires |Fields(l)| > 6
  {
    IsParent(p, Fields(l)[6]) && ChildSegment(p, Fields(l)[6]) != ""
  }

  /** The remote part of `listdir`: the first path piece after `p/` of every line below
      `p`. */
  function ChildNames(p: string, rl: seq<string>): (r: set<string>)
    requires forall l :: l in rl ==> |Fields(l)| > 6
    ensures forall l :: l in rl && Contributes(p, l) ==> ChildSegment(p, Fields(l)[6]) in r
    ensures forall n :: n in r ==> exists l :: l in rl && Contributes(p, l) && ChildSegment(p, Fields(l)[6]) == n
  {
    if rl == [] then {}
    else
      var init, last := rl[..|rl| - 1], rl[|rl| - 1];
      assert rl == init + [last];
      ChildNames(p, init) + (if Contributes(p, last) then {ChildSegment(p, Fields(last)[6])} else {})
  }

  lemma ChildNamesStep(p: string, rl: seq<string>, i: nat)
    requires i < |rl| && forall l :: l in rl ==> |Fields(l)| > 6
    ensures forall l :: l in rl[..i] ==> |Fields(l)| > 6
    ensures ChildNames(p, rl[..i + 1]) ==
      ChildNames(p, rl[..i]) + (if Contributes(p, rl[i]) then {ChildSegment(p, Fields(rl[i])[6])} else {})
  {
    assert rl[..i + 1][..i] == rl[..i];
  }

  /** What `listdir(path)` returns: DirectoryExpected unless `getinfo` says directory;
      otherwise the children named by the log, joined by the transfer area's listing when
      `show_local` is set and the directory exists there. */
  function ListDirResult(lines: seq<string>, prefix: string, showLocal: bool, local: map<string, Entry>,
                         path: string): Result<set<string>, FsError>
  {
    var info := GetInfo(lines, prefix, showLocal, local, path);
    if info.Err? then Err(info.error)
    else if !info.value.isDir then Err(DirectoryExpected)
    else
      var remote := RemoteChildren(lines, prefix, path);
      if showLocal && (path == "/" || path in local) then
        match ListLocal(local, path)
        case Err(e) => Err(e)
        case Ok(names) => Ok(remote + names)
      else Ok(remote)
  }

  /** The children the log names for `path`. */
  function RemoteChildren(lines: seq<string>, prefix: string, path: string): set<string> {
    var p := PrefixedPath(prefix, path);
    ChildNames(p, GetLinesFor(lines, p))
  }

  /** What `listdir` returns on success: the children the log names, together with the
      transfer area's children when `show_local` is set, and nothing else. */
  lemma ListingOfDirectory(lines: seq<string>, prefix: string, showLocal: bool, local: map<string, Entry>,
                           path: string)
    requires ListDirResult(lines, prefix, showLocal, local, path).Ok?
    ensures var names := ListDirResult(lines, prefix, showLocal, local, path).value;
      && RemoteChildren(lines, prefix, path) <= names
      && names <= RemoteChildren(lines, prefix, path) + (if showLocal then Children(local, path) else {})
      && (!showLocal ==> names == RemoteChildren(lines, prefix, path))
      && (showLocal && (path == "/" || path in local) ==> Children(local, path) <= names)
  {
  }

  /** Every resource the log records below a directory makes the first piece of its
      path after the directory one of the directory's children. */
  lemma LoggedChildIsListed(lines: seq<string>, prefix: string, path: string, l: string, name: string,
                            tail: string)
    requires l in lines && Qualifies(l, PrefixedPath(prefix, path))
    requires name != "" && NoSlash(name) && (tail == [] || tail[0] == '/')
    requires Fields(l)[6] == ForceDir(PrefixedPath(prefix, path)) + name + tail
    ensures name in RemoteChildren(lines, prefix, path)
  {
    var p := PrefixedPath(prefix, path);
    IsParentOfChild(p, name + tail);
    assert ForceDir(p) + name + tail == ForceDir(p) + (name + tail);
    ChildSegmentOfChild(p, name, tail);
    assert l in GetLinesFor(lines, p);
    assert Contributes(p, l);
  }

  /** Every child the log names is a non-empty, slash-free piece that follows `path/`
      in a qualifying log line. */
  lemma ListedNameIsLogged(lines: seq<string>, prefix: string, path: string, n: string)
    requires n in RemoteChildren(lines, prefix, path)
    ensures var p := PrefixedPath(prefix, path);
      && n != "" && NoSlash(n)
      && exists l :: l in lines && Qualifies(l, p) && IsParent(p, Fields(l)[6]) && ChildSegment(p, Fields(l)[6]) == n
  {
    var p := PrefixedPath(prefix, path);
    var rl := GetLinesFor(lines, p);
    var l :| l in rl && Contributes(p, l) && ChildSegment(p, Fields(l)[6]) == n;
    assert l in lines && Qualifies(l, p);
  }

  /** `openbin(path, mode)` up to the point where the file object is made: the checks it
      performs and the errors they raise. */
  function OpenBinCheck(lines: seq<string>, prefix: string, showLocal: bool, local: map<string, Entry>,
                        path: string, create: bool, exclusive: bool): (r: Result<(), FsError>)
    ensures var info := GetInfo(lines, prefix, showLocal, local, path);
      !create ==> (r.Ok? <==> info.Ok? && !info.value.isDir)
    ensures var info := GetInfo(lines, prefix, showLocal, local, path);
      create && r.Ok? ==> info == Err(ResourceNotFound) || (info.Ok? && !info.value.isDir && !exclusive)
    ensures create && r.Ok? ==> Dirname(path) == "/" || GetInfo(lines, prefix, showLocal, local, Dirname(path)).Ok?
    ensures r == Err(FileExists) ==> create && exclusive
    ensures r.Err? ==> r.error in {ResourceNotFound, ValueError, FileExists, FileExpected}
    ensures var parent := GetInfo(lines, prefix, showLocal, local, Dirname(path));
      create && Dirname(path) != "/" && parent.Err? ==> r == Err(parent.error)
    ensures var info := GetInfo(lines, prefix, showLocal, local, path);
      var parentOk := Dirname(path) == "/" || GetInfo(lines, prefix, showLocal, local, Dirname(path)).Ok?;
      && (create && parentOk && info.Ok? && exclusive ==> r == Err(FileExists))
      && (create && parentOk && info.Ok? && !exclusive && info.value.isDir ==> r == Err(FileExpected))
      && (create && parentOk && info.Err? && info.error != ResourceNotFound ==> r == Err(info.error))
    ensures var info := GetInfo(lines, prefix, showLocal, local, path);
      var parentOk := Dirname(path) == "/" || GetInfo(lines, prefix, showLocal, local, Dirname(path)).Ok?;
      create ==> (r.Ok? <==> parentOk && (info == Err(ResourceNotFound) || (info.Ok? && !exclusive && !info.value.isDir)))
    ensures var info := GetInfo(lines, prefix, showLocal, local, path);
      && (!create && info.Err? ==> r == Err(info.error))
      && (!create && info.Ok? && info.value.isDir ==> r == Err(FileExpected))
  {
    if create then
      var dir := Dirname(path);
      var parent := if dir != "/" then GetInfo(lines, prefix, showLocal, local, dir) else Ok(RootInfo);
      if parent.Err? then Err(parent.error)
      else
        var info := GetInfo(lines, prefix, showLocal, local, path);
        if info.Err? && info.error != ResourceNotFound then Err(info.error)
        else if info.Ok? && exclusive then Err(FileExists)
        else if info.Ok? && info.value.isDir then Err(FileExpected)
        else Ok(())
    else
      var info := GetInfo(lines, prefix, showLocal, local, path);
      if info.Err? then Err(info.error)
      else if info.value.isDir then Err(FileExpected)
      else Ok(())
  }

  /** Creating a file checks only that the parent exists, not that it is a directory:
      with a local file `/f` shown and an empty log, creating `/f/x` passes the checks. */
  lemma CreateBelowFilePasses(lines: seq<string>)
    requires lines == []
    ensures OpenBinCheck(lines, "", true, map["/f" := Entry(false, 0)], "/f/x", true, true) == Ok(())
  {
    assert Dirname("/f/x") == "/f" by {
      assert LastSlash("/f/x") == Some(2);
    }
    assert GetLinesFor(lines, PrefixedPath("", "/f")) == [];
    assert GetLinesFor(lines, PrefixedPath("", "/f/x")) == [];
  }

  /** `_collect_garbage`'s test of one transfer-area entry: the log answers for it and
      is at least as recent. */
  predicate InSync(lines: seq<string>, prefix: string, local: map<string, Entry>, k: string)
    requires k in local
  {
    var remote := GetInfoRemote(lines, prefix, k);
    remote.Ok? && remote.value.modified >= local[k].modified
  }

  /** `paths_to_remove` after the walk: every entry, file or directory, that the log has
      at least as recent; a ValueError from the log for any entry aborts the walk. */
  function Garbage(lines: seq<string>, prefix: string, local: map<string, Entry>): (r: Result<set<string>, FsError>)
    ensures r.Err? <==> exists k :: k in local && GetInfoRemote(lines, prefix, k) == Err(ValueError)
    ensures r.Err? ==> r.error == ValueError
    ensures r.Ok? ==> forall k :: k in r.value <==> k in local && InSync(lines, prefix, local, k)
  {
    if exists k :: k in local && GetInfoRemote(lines, prefix, k) == Err(ValueError) then Err(ValueError)
    else Ok(set k | k in local && InSync(lines, prefix, local, k))
  }

  /** The garbage restricted to files: what the walk is meant to collect. */
  function GarbageFiles(lines: seq<string>, prefix: string, local: map<string, Entry>): (r: Result<set<string>, FsError>)
    ensures r.Err? <==> Garbage(lines, prefix, local).Err?
    ensures r.Ok? ==> forall k :: k in r.value <==> k in local && !local[k].isDir && InSync(lines, prefix, local, k)
  {
    match Garbage(lines, prefix, local)
    case Err(e) => Err(e)
    case Ok(g) => Ok(set k | k in g && !local[k].isDir)
  }

  predicate NoDirectory(local: map<string, Entry>, paths: set<string>) {
    forall k :: k in paths && k in local ==> !local[k].isDir
  }

  /** A local directory whose path the log records a later file under is collected as
      garbage: with `/d` a directory from time `m` and a log line for `/d/f` at or after
      `m`, the walk selects `/d`, and removing it raises FileExpected. */
  lemma SyncedDirectoryIsGarbage(lines: seq<string>, local: map<string, Entry>, t: DateTime, word: string,
                                 hash: string, m: int)
    requires ValidDateTime(t) && 1969 <= t.year <= 2068
    requires Word(word) && Word(hash) && |hash| == 32
    requires m <= EpochSeconds(t)
    requires lines == [LogLine(t, word, hash, false, "/d/f")] && local == map["/d" := Entry(true, m)]
    ensures Garbage(lines, "", local) == Ok({"/d"}) && !NoDirectory(local, {"/d"})
  {
    assert StartsWith("/d/f", "/d") && "/d/f" != "/d" && Word("/d/f");
    LineBelowReadsAsDirectory(t, word, hash, false, "/d", "/d/f");
    assert GetInfoRemote(lines, "", "/d").Ok?;
    assert InSync(lines, "", local, "/d");
    assert local.Keys == {"/d"};
    assert (set k | k in local && InSync(lines, "", local, k)) == {"/d"};
  }

  class CrashPlanFS {
    /** The lines of the log files, read once. */
    const lines: seq<string>
    /** The path inside the backup this file system shows, without outer slashes. */
    var prefix: string
    const showLocal: bool
    const area: TransferArea

    predicate Valid()
      reads this, area
    {
      area.Valid()
    }

    constructor (lines: seq<string>, prefix: string, showLocal: bool, area: TransferArea)
      ensures this.lines == lines && this.prefix == prefix
      ensures this.showLocal == showLocal && this.area == area
    {
      this.lines := lines;
      this.prefix := prefix;
      this.showLocal := showLocal;
      this.area := area;
    }

    /** `listdir(path)`, collecting the log's children in a loop over its lines. */
    method ListDir(path: string) returns (r: Result<set<string>, FsError>)
      ensures r == ListDirResult(lines, prefix, showLocal, area.entries, path)
    {
      var p := PrefixedPath(prefix, path);
      var info := GetInfo(lines, prefix, showLocal, area.entries, path);
      if info.Err? {
        return Err(info.error);
      }
      if !info.value.isDir {
        return Err(DirectoryExpected);
      }
      var remoteNames := ChildrenIn(p, GetLinesFor(lines, p));
      if showLocal && area.Exists(path) {
        var listing := ListLocal(area.entries, path);
        if listing.Err? {
          return Err(listing.error);
        }
        r := Ok(remoteNames + listing.value);
      } else {
        r := Ok(remoteNames);
      }
    }

    /** The loop of `listdir` over the qualifying log lines. */
    static method ChildrenIn(p: string, rl: seq<string>) returns (names: set<string>)
      requires forall l :: l in rl ==> |Fields(l)| > 6
      ensures names == ChildNames(p, rl)
    {
      names := {};
      var i := 0;
      while i < |rl|
        invariant 0 <= i <= |rl|
        invariant names == ChildNames(p, rl[..i])
      {
        var e := Fields(rl[i]);
        if IsParent(p, e[6]) {
          var suffix := ChildSegment(p, e[6]);
          if suffix != "" {
            names := names + {suffix};
          }
        }
        ChildNamesStep(p, rl, i);
        i := i + 1;
      }
      assert rl[..i] == rl;
    }

    /** `makedir(path)` at time `now`: the parent must be a directory; an existing
        resource is DirectoryExists, or with `recreate` is accepted when it is a
        directory; a resource `getinfo` cannot find is created in the transfer area
        together with its missing ancestors. */
    method MakeDir(path: string, recreate: bool, now: int) returns (r: Result<(), FsError>)
      requires Valid() && Absolute(path)
      modifies area
      ensures Valid()
      ensures var parent := old(IsDir(lines, prefix, showLocal, area.entries, Dirname(path)));
        && (parent.Err? ==> r == Err(ValueError))
        && (parent == Ok(false) ==> r == Err(ResourceNotFound))
      ensures var parent := old(IsDir(lines, prefix, showLocal, area.entries, Dirname(path)));
        var info := old(GetInfo(lines, prefix, showLocal, area.entries, path));
        parent == Ok(true) ==>
          && (info.Ok? ==> r == (if !recreate then Err(DirectoryExists)
                                 else if info.value.isDir then Ok(()) else Err(DirectoryExpected)))
          && (info == Err(ValueError) ==> r == Err(ValueError))
          && (info == Err(ResourceNotFound) ==>
                (r.Ok? <==> !old(area.Exists(path)) && old(MissingDirs(area.entries, path)).Ok?))
          && (info == Err(ResourceNotFound) && old(area.IsDirectory(path)) ==> r == Err(DirectoryExists))
          && (info == Err(ResourceNotFound) && !old(area.IsDirectory(path)) && old(MissingDirs(area.entries, path)).Err? ==>
                r == Err(DirectoryExpected))
          && (info == Err(ResourceNotFound) && r.Ok? ==>
                area.entries == old(area.entries) + map q | q in old(MissingDirs(area.entries, path)).value :: Entry(true, now))
      ensures r.Err? || old(GetInfo(lines, prefix, showLocal, area.entries, path)).Ok? ==>
        area.entries == old(area.entries)
      ensures r.Ok? && area.entries != old(area.entries) ==>
        && area.IsDirectory(path)
        && (forall k :: k in old(area.entries) ==> k in area.entries && area.entries[k] == old(area.entries)[k])
        && (forall k :: k in area.entries && k !in old(area.entries) ==> area.entries[k] == Entry(true, now))
        && GetInfo(lines, prefix, showLocal, area.entries, path) ==
             (if showLocal then Ok(FromLocal(path, Entry(true, now), false)) else Err(ResourceNotFound))
    {
      var parent := IsDir(lines, prefix, showLocal, area.entries, Dirname(path));
      if parent.Err? {
        return Err(parent.error);
      }
      if !parent.value {
        return Err(ResourceNotFound);
      }
      var info := GetInfo(lines, prefix, showLocal, area.entries, path);
      if info.Ok? {
        if !recreate {
          return Err(DirectoryExists);
        }
        if !info.value.isDir {
          return Err(DirectoryExpected);
        }
        return Ok(());
      }
      if info.error != ResourceNotFound {
        return Err(info.error);
      }
      ghost var before := area.entries;
      r := area.MakeDirs(path, now);
      if r.Ok? {
        assert path !in before;
        assert GetInfoRemote(lines, prefix, path) == Err(ResourceNotFound);
      }
    }

    /** `remove(path)`: `getinfo` must answer with a file; the transfer area then removes
        its own copy, so a file known only to the log cannot be removed. */
    method Remove(path: string) returns (r: Result<(), FsError>)
      requires Valid()
      modifies area
      ensures Valid()
      ensures var info := old(GetInfo(lines, prefix, showLocal, area.entries, path));
        && (info.Err? ==> r == Err(info.error))
        && (info.Ok? && info.value.isDir ==> r == Err(FileExpected))
        && (info.Ok? && !info.value.isDir ==>
              && (r.Ok? <==> path in old(area.entries) && !old(area.entries)[path].isDir)
              && (r == Err(ResourceNotFound) <==> path !in old(area.entries))
              && (r == Err(FileExpected) <==> path in old(area.entries) && old(area.entries)[path].isDir))
      ensures r.Err? ==> area.entries == old(area.entries)
      ensures r.Ok? ==> area.entries == old(area.entries) - {path}
      ensures r.Ok? ==> GetInfo(lines, prefix, showLocal, area.entries, path) == GetInfo(lines, prefix, showLocal, map[], path)
    {
      var info := GetInfo(lines, prefix, showLocal, area.entries, path);
      if info.Err? {
        return Err(info.error);
      }
      if info.value.isDir {
        return Err(FileExpected);
      }
      r := area.Remove(path);
      if r.Ok? {
        AbsentLocallyIsRemote(lines, prefix, showLocal, area.entries, path);
      }
    }

    /** `removedir(path)`: never the root; `getinfo` must answer with a directory that
        `listdir` shows empty; the transfer area then removes its own empty copy. */
    method RemoveDir(path: string) returns (r: Result<(), FsError>)
      requires Valid()
      modifies area
      ensures Valid()
      ensures r.Err? ==> area.entries == old(area.entries)
      ensures r.Ok? ==> area.entries == old(area.entries) - {path}
      ensures path == "/" ==> r == Err(RemoveRootError)
      ensures var info := old(GetInfo(lines, prefix, showLocal, area.entries, path));
        var listing := old(ListDirResult(lines, prefix, showLocal, area.entries, path));
        path != "/" ==>
          && (info.Err? ==> r == Err(info.error))
          && (info.Ok? && !info.value.isDir ==> r == Err(DirectoryExpected))
          && (info.Ok? && info.value.isDir && listing.Err? ==> r == Err(listing.error))
          && (info.Ok? && info.value.isDir && listing.Ok? && listing.value != {} ==> r == Err(DirectoryNotEmpty))
          && (info.Ok? && info.value.isDir && listing == Ok({}) ==>
                && (r.Ok? <==> path in old(area.entries) && old(area.entries)[path].isDir
                               && Children(old(area.entries), path) == {})
                && (path !in old(area.entries) ==> r == Err(ResourceNotFound))
                && (path in old(area.entries) && !old(area.entries)[path].isDir ==> r == Err(DirectoryExpected))
                && ((path in old(area.entries) && old(area.entries)[path].isDir && Children(old(area.entries), path) != {})
                      ==> r == Err(DirectoryNotEmpty)))
    {
      if path == "/" {
        return Err(RemoveRootError);
      }
      var info := GetInfo(lines, prefix, showLocal, area.entries, path);
      if info.Err? {
        return Err(info.error);
      }
      if !info.value.isDir {
        return Err(DirectoryExpected);
      }
      var listing := ListDir(path);
      if listing.Err? {
        return Err(listing.error);
      }
      if listing.value != {} {
        return Err(DirectoryNotEmpty);
      }
      r := area.RemoveDir(path);
    }

    /** The walk of `_collect_garbage`: the entries the log has at least as recent. */
    method CollectSynced() returns (r: Result<set<string>, FsError>)
      ensures r == Garbage(lines, prefix, area.entries)
    {
      var todo := area.entries.Keys;
      var synced: set<string> := {};
      while todo != {}
        invariant todo <= area.entries.Keys
        invariant forall k :: k in area.entries && k !in todo ==> GetInfoRemote(lines, prefix, k) != Err(ValueError)
        invariant forall k :: k in synced <==> k in area.entries && k !in todo && InSync(lines, prefix, area.entries, k)
        decreases todo
      {
        var k :| k in todo;
        var remote := GetInfoRemote(lines, prefix, k);
        if remote.Err? && remote.error != ResourceNotFound {
          assert k in area.entries && GetInfoRemote(lines, prefix, k) == Err(ValueError);
          return Err(remote.error);
        }
        if remote.Ok? && remote.value.modified >= area.entries[k].modified {
          synced := synced + {k};
        }
        todo := todo - {k};
      }
      assert synced == set k | k in area.entries && InSync(lines, prefix, area.entries, k);
      r := Ok(synced);
    }

    /** The removal loop of `_collect_garbage`: each path in turn, stopping at the first
        error. Only files can be removed, so one directory among the paths makes it fail
        with FileExpected, after an unspecified part of the files has gone. */
    method RemovePaths(paths: set<string>) returns (r: Result<(), FsError>)
      requires Valid() && paths <= area.entries.Keys
      modifies area
      ensures Valid()
      ensures NoDirectory(old(area.entries), paths) ==> r == Ok(()) && area.entries == old(area.entries) - paths
      ensures !NoDirectory(old(area.entries), paths) ==> r == Err(FileExpected)
      ensures area.entries.Keys <= old(area.entries).Keys && old(area.entries).Keys - area.entries.Keys <= paths
      ensures forall k :: k in area.entries ==> area.entries[k] == old(area.entries)[k]
    {
      var pending := paths;
      while pending != {}
        invariant pending <= paths && area.Valid()
        invariant area.entries == old(area.entries) - (paths - pending)
        invariant forall k :: k in paths && k !in pending ==> !old(area.entries)[k].isDir
        decreases pending
      {
        var k :| k in pending;
        var res := area.Remove(k);
        if res.Err? {
          return Err(res.error);
        }
        pending := pending - {k};
      }
      r := Ok(());
    }

    /** `_collect_garbage()`: remove from the transfer area every entry the log has at
        least as recent, directories included. */
    method CollectGarbage() returns (r: Result<(), FsError>)
      requires Valid()
      modifies area
      ensures Valid()
      ensures var g := Garbage(lines, prefix, old(area.entries));
        && (g.Err? ==> r == Err(ValueError) && area.entries == old(area.entries))
        && (g.Ok? && NoDirectory(old(area.entries), g.value) ==>
              r == Ok(()) && area.entries == old(area.entries) - g.value)
        && (g.Ok? && !NoDirectory(old(area.entries), g.value) ==> r == Err(FileExpected))
        && (g.Ok? ==> old(area.entries).Keys - area.entries.Keys <= g.value)
      ensures area.entries.Keys <= old(area.entries).Keys
      ensures forall k :: k in area.entries ==> area.entries[k] == old(area.entries)[k]
    {
      var synced := CollectSynced();
      if synced.Err? {
        return Err(synced.error);
      }
      r := RemovePaths(synced.value);
    }

    /** The collection as its comment describes it: only the files the log has at least
        as recent are removed, so it fails only on a ValueError from the log. */
    method CollectSyncedFiles() returns (r: Result<(), FsError>)
      requires Valid()
      modifies area
      ensures Valid()
      ensures var g := GarbageFiles(lines, prefix, old(area.entries));
        && (r.Ok? <==> g.Ok?)
        && (g.Err? ==> r == Err(ValueError) && area.entries == old(area.entries))
        && (g.Ok? ==> area.entries == old(area.entries) - g.value)
    {
      var synced := CollectSynced();
      if synced.Err? {
        return Err(synced.error);
      }
      var files := set k | k in synced.value && !area.entries[k].isDir;
      r := RemovePaths(files);
    }

    /** The part of the constructor run with the prefix emptied (`create=False`):
        `dir_path`, validated as `isdir` does, must be a directory, then the garbage is
        collected, files only. */
    method CheckRootAndCollect(dirPath: string) returns (r: Result<(), FsError>)
      requires Valid()
      modifies area
      ensures Valid()
      ensures var isDir := old(CheckedIsDir(lines, prefix, showLocal, area.entries, dirPath));
        && (isDir.Err? ==> r == Err(isDir.error))
        && (isDir == Ok(false) ==> r == Err(CreateFailed))
        && (isDir != Ok(true) ==> area.entries == old(area.entries))
      ensures var isDir := old(CheckedIsDir(lines, prefix, showLocal, area.entries, dirPath));
        isDir == Ok(true) ==> (r.Ok? <==> GarbageFiles(lines, prefix, old(area.entries)).Ok?)
      ensures r.Ok? ==> var g := GarbageFiles(lines, prefix, old(area.entries));
        g.Ok? && area.entries == old(area.entries) - g.value
    {
      var isDir := CheckedIsDir(lines, prefix, showLocal, area.entries, dirPath);
      if isDir.Err? {
        return Err(isDir.error);
      }
      if !isDir.value {
        return Err(CreateFailed);
      }
      r := CollectSyncedFiles();
    }

    /** `CrashPlanFS(dir_path, ...)` with `create=False`: the prefix comes from the
        normalised `dir_path`; with the prefix emptied, `dir_path` must be a directory and
        the garbage collection, restricted to files, must succeed; then the prefix is set. */
    static method Open(dirPath: string, lines: seq<string>, showLocal: bool, area: TransferArea)
      returns (r: Result<CrashPlanFS, FsError>)
      requires area.Valid()
      modifies area
      ensures area.Valid()
      ensures ComputePrefix(dirPath).None? ==> r == Err(IllegalBackReference) && area.entries == old(area.entries)
      ensures var isDir := old(CheckedIsDir(lines, "", showLocal, area.entries, dirPath));
        ComputePrefix(dirPath).Some? ==>
          && (isDir.Err? ==> r == Err(ValueError))
          && (isDir == Ok(false) ==> r == Err(CreateFailed))
          && (isDir != Ok(true) ==> area.entries == old(area.entries))
      ensures var isDir := old(CheckedIsDir(lines, "", showLocal, area.entries, dirPath));
        ComputePrefix(dirPath).Some? && isDir == Ok(true) ==> (r.Ok? <==> GarbageFiles(lines, "", old(area.entries)).Ok?)
      ensures r.Ok? ==>
        && fresh(r.value) && r.value.area == area && r.value.lines == lines
        && r.value.showLocal == showLocal && ComputePrefix(dirPath) == Some(r.value.prefix)
      ensures r.Ok? ==> var g := GarbageFiles(lines, "", old(area.entries));
        g.Ok? && area.entries == old(area.entries) - g.value
    {
      var prefix := ComputePrefix(dirPath);
      if prefix.None? {
        return Err(IllegalBackReference);
      }
      ghost var before := area.entries;
      ghost var isDir := CheckedIsDir(lines, "", showLocal, before, dirPath);
      ghost var g := GarbageFiles(lines, "", before);
      var fs := new CrashPlanFS(lines, "", showLocal, area);
      var checked := fs.CheckRootAndCollect(dirPath);
      assert isDir == Ok(true) ==> (checked.Ok? <==> g.Ok?);
      assert checked.Ok? ==> g.Ok? && area.entries == before - g.value;
      if checked.Err? {
        return Err(checked.error);
      }
      fs.prefix := prefix.value;
      r := Ok(fs);
    }
  }
}

=== FILE: CrashPlanLog.dfy ===
/** The read-only side of the file system: the lines of the CrashPlan backup logs and
    the lookup of one resource in them (src/fs_crashplanfs/crashplan.py:95-100 and
    153-195). */
module CrashPlanLog {
  import opened Wrappers
  import opened Text
  import opened Paths
  import opened Timestamps

  /** The test `getLinesFor(s)` applies to one log line: `s` occurs in it, it starts with the
      inclusion marker `I `, it has more than six fields, field 4 is 32 characters wide
      and field 6, the resource path, starts with `s`. */
  predicate Qualifies(l: string, s: string) {
    var f := Fields(l);
    Contains(l, s) && StartsWith(l, "I ") && |f| > 6 && |f[4]| == 32 && StartsWith(f[6], s)
  }

  /** The substring pre-filter never decides anything: a line passes exactly when the
      marker, field count, hash width and path-prefix tests pass. */
  lemma QualifiesWithoutSubstringTest(l: string, s: string)
    ensures Qualifies(l, s) <==> (var f := Fields(l);
      StartsWith(l, "I ") && |f| > 6 && |f[4]| == 32 && StartsWith(f[6], s))
  {
    var f := Fields(l);
    if StartsWith(l, "I ") && |f| > 6 && |f[4]| == 32 && StartsWith(f[6], s) {
      FieldPrefixIsContained(l, 6, s);
    }
  }

  /** `getLinesFor(s)`: the qualifying lines, in log order. */
  function GetLinesFor(lines: seq<string>, s: string): (r: seq<string>)
    ensures |r| <= |lines|
    ensures forall l :: l in r ==> l in lines && Qualifies(l, s)
    ensures forall l :: l in lines && Qualifies(l, s) ==> l in r
  {
    if lines == [] then []
    else
      var init, last := lines[..|lines| - 1], lines[|lines| - 1];
      assert lines == init + [last];
      GetLinesFor(init, s) + (if Qualifies(last, s) then [last] else [])
  }

  /** Filtering a log read in two parts is filtering each part. */
  lemma {:induction false} GetLinesForAppend(a: seq<string>, b: seq<string>, s: string)
    ensures GetLinesFor(a + b, s) == GetLinesFor(a, s) + GetLinesFor(b, s)
  {
    if b == [] {
      assert a + b == a;
    } else {
      var init, last := b[..|b| - 1], b[|b| - 1];
      assert b == init + [last];
      assert a + b == (a + init) + [last];
      GetLinesForAppend(a, init, s);
      GetLinesForSnoc(a + init, last, s);
      GetLinesForSnoc(init, last, s);
      var extra := if Qualifies(last, s) then [last] else [];
      assert (GetLinesFor(a, s) + GetLinesFor(init, s)) + extra == GetLinesFor(a, s) + (GetLinesFor(init, s) + extra);
    }
  }

  lemma GetLinesForSnoc(a: seq<string>, l: string, s: string)
    ensures GetLinesFor(a + [l], s) == GetLinesFor(a, s) + (if Qualifies(l, s) then [l] else [])
  {
    var al := a + [l];
    assert al[..|al| - 1] == a && al[|al| - 1] == l;
  }

  /** The lines among `rl` whose path field is exactly `p`. */
  function ExactMatches(rl: seq<string>, p: string): (r: seq<string>)
    requires forall l :: l in rl ==> |Fields(l)| > 6
    ensures forall l :: l in r ==> l in rl && Fields(l)[6] == p
    ensures forall l :: l in rl && Fields(l)[6] == p ==> l in r
  {
    if rl == [] then []
    else
      var init, last := rl[..|rl| - 1], rl[|rl| - 1];
      assert forall l :: l in init ==> l in rl;
      ExactMatches(init, p) + (if Fields(last)[6] == p then [last] else [])
  }

  /** A line the lookup of `p` can take its answer from: any qualifying line, or with
      `exact` only one whose path field is `p` itself. */
  predicate Wanted(l: string, p: string, exact: bool) {
    Qualifies(l, p) && (exact ==> Fields(l)[6] == p)
  }

  /** The index of the latest wanted line, the reference the lookup is checked against. */
  function LastWanted(lines: seq<string>, p: string, exact: bool): (r: Option<nat>)
    ensures r.Some? ==> r.value < |lines| && Wanted(lines[r.value], p, exact)
    ensures r.Some? ==> forall j :: r.value < j < |lines| ==> !Wanted(lines[j], p, exact)
    ensures r.None? ==> forall j :: 0 <= j < |lines| ==> !Wanted(lines[j], p, exact)
  {
    if lines == [] then None
    else if Wanted(lines[|lines| - 1], p, exact) then Some(|lines| - 1)
    else
      var r := LastWanted(lines[..|lines| - 1], p, exact);
      assert forall j :: 0 <= j < |lines| - 1 ==> lines[..|lines| - 1][j] == lines[j];
      r
  }

  /** The last line `getLinesFor` returns is the latest qualifying line of the log. */
  lemma {:induction false} LastOfLinesFor(lines: seq<string>, p: string)
    ensures var rl := GetLinesFor(lines, p);
      (rl == [] <==> LastWanted(lines, p, false).None?)
      && (rl != [] ==> rl[|rl| - 1] == lines[LastWanted(lines, p, false).value])
  {
    if lines != [] {
      var init := lines[..|lines| - 1];
      LastOfLinesFor(init, p);
    }
  }

  /** The last exact match among the qualifying lines is the latest exact line of the log. */
  lemma {:induction false} LastOfExactMatches(lines: seq<string>, p: string)
    ensures var ex := ExactMatches(GetLinesFor(lines, p), p);
      (ex == [] <==> LastWanted(lines, p, true).None?)
      && (ex != [] ==> ex[|ex| - 1] == lines[LastWanted(lines, p, true).value])
  {
    if lines != [] {
      var init, last := lines[..|lines| - 1], lines[|lines| - 1];
      LastOfExactMatches(init, p);
      ExactMatchesStep(lines, p);
      if !Wanted(last, p, true) {
        var w := LastWanted(init, p, true);
        assert LastWanted(lines, p, true) == w;
        if w.Some? {
          assert init[w.value] == lines[w.value];
        }
      }
    }
  }

  /** One more log line adds itself to the exact matches exactly when it is an exact line. */
  lemma ExactMatchesStep(lines: seq<string>, p: string)
    requires lines != []
    ensures var init, last := lines[..|lines| - 1], lines[|lines| - 1];
      ExactMatches(GetLinesFor(lines, p), p)
        == ExactMatches(GetLinesFor(init, p), p) + (if Wanted(last, p, true) then [last] else [])
  {
    var init, last := lines[..|lines| - 1], lines[|lines| - 1];
    var g, gi := GetLinesFor(lines, p), GetLinesFor(init, p);
    if Qualifies(last, p) {
      assert g[..|g| - 1] == gi && g[|g| - 1] == last;
    } else {
      assert g == gi;
    }
  }

  /** The `basic` and `details` namespaces `_getinfo_remote` fills in. */
  datatype RemoteInfo = RemoteInfo(name: string, isDir: bool, modified: int)

  /** The info read from the chosen entry of the resource at the prefixed path `p`;
      `exact` says whether the entry names `p` itself (otherwise `p` is an intermediate
      directory). `int()` of field 5 and `strptime` of fields 1 and 2 raise ValueError. */
  function DecodeEntry(entry: string, p: string, exact: bool): (r: Result<RemoteInfo, FsError>)
    requires |Fields(entry)| > 6
    ensures r.Err? ==> r.error == ValueError
    ensures r.Ok? ==> r.value.name == Basename(p)
    ensures r.Ok? ==> (r.value.isDir <==> !exact || ParseInt(Fields(entry)[5]) == Some(1))
    ensures var t := ParseTimestamp(Fields(entry)[1], Fields(entry)[2]);
      r.Ok? <==> t.Some? && (exact ==> ParseInt(Fields(entry)[5]).Some?)
    ensures r.Ok? ==> r.value.modified == EpochSeconds(ParseTimestamp(Fields(entry)[1], Fields(entry)[2]).value)
  {
    var f := Fields(entry);
    var isDir := if exact then (match ParseInt(f[5]) case None => None case Some(v) => Some(v == 1)) else Some(true);
    var when := ParseTimestamp(f[1], f[2]);
    if isDir.None? || when.None? then Err(ValueError)
    else Ok(RemoteInfo(Basename(p), isDir.value, EpochSeconds(when.value)))
  }

  /** `_getinfo_remote(path)` with the file system's prefix: ResourceNotFound when no line
      qualifies; otherwise the last exact match decides, or, without one, the last
      qualifying line describes an intermediate directory. */
  function GetInfoRemote(lines: seq<string>, prefix: string, path: string): (r: Result<RemoteInfo, FsError>)
    ensures r.Err? ==> r.error == ResourceNotFound || r.error == ValueError
  {
    var p := PrefixedPath(prefix, path);
    var rl := GetLinesFor(lines, p);
    if rl == [] then Err(ResourceNotFound)
    else
      var exact := ExactMatches(rl, p);
      if exact == [] then DecodeEntry(rl[|rl| - 1], p, false)
      else DecodeEntry(exact[|exact| - 1], p, true)
  }

  /** The lookup in terms of the log itself: the latest line naming the resource exactly
      wins; failing that the latest line under it makes it a directory; failing that it
      does not exist. */
  lemma GetInfoRemoteLatest(lines: seq<string>, prefix: string, path: string)
    ensures var p := PrefixedPath(prefix, path);
      GetInfoRemote(lines, prefix, path) ==
        match LastWanted(lines, p, true)
        case Some(i) => DecodeEntry(lines[i], p, true)
        case None =>
          match LastWanted(lines, p, false)
          case Some(i) => DecodeEntry(lines[i], p, false)
          case None => Err(ResourceNotFound)
  {
    var p := PrefixedPath(prefix, path);
    var rl := GetLinesFor(lines, p);
    var ex := ExactMatches(rl, p);
    LastOfLinesFor(lines, p);
    LastOfExactMatches(lines, p);
    match LastWanted(lines, p, true)
    case Some(i) =>
      assert lines[i] in rl;
      assert ex != [] && ex[|ex| - 1] == lines[i];
    case None =>
      assert ex == [];
      match LastWanted(lines, p, false)
      case Some(i) =>
        assert rl != [] && rl[|rl| - 1] == lines[i];
      case None =>
        assert rl == [];
  }

  /** Resource-not-found exactly when no line of the log qualifies for the prefixed path. */
  lemma GetInfoRemoteNotFound(lines: seq<string>, prefix: string, path: string)
    ensures GetInfoRemote(lines, prefix, path) == Err(ResourceNotFound) <==>
      forall j :: 0 <= j < |lines| ==> !Qualifies(lines[j], PrefixedPath(prefix, path))
  {
    var p := PrefixedPath(prefix, path);
    LastOfLinesFor(lines, p);
    var rl := GetLinesFor(lines, p);
    if rl == [] {
      assert LastWanted(lines, p, false).None?;
    } else {
      assert Wanted(lines[LastWanted(lines, p, false).value], p, false);
    }
  }

  /** A log line in the layout of the repository's test logs: marker, date, time, a
      word, the 32-character hash, the directory flag and the path. */
  function LogLine(t: DateTime, word: string, hash: string, isDir: bool, p: string): string
    requires ValidDateTime(t) && 1969 <= t.year <= 2068
  {
    Join(["I", FormatDate(t), FormatTime(t), word, hash, if isDir then "1" else "0", p])
  }

  predicate Word(w: string) {
    w != [] && NoSpace(w)
  }

  lemma LogLineFields(t: DateTime, word: string, hash: string, isDir: bool, p: string)
    requires ValidDateTime(t) && 1969 <= t.year <= 2068
    requires Word(word) && Word(hash) && Word(p)
    ensures Fields(LogLine(t, word, hash, isDir, p))
      == ["I", FormatDate(t), FormatTime(t), word, hash, if isDir then "1" else "0", p]
  {
    FormatIsWord(t);
    var ws := ["I", FormatDate(t), FormatTime(t), word, hash, if isDir then "1" else "0", p];
    assert forall k :: 0 <= k < |ws| ==> ws[k] != [] && NoSpace(ws[k]);
    FieldsOfJoin(ws);
  }

  lemma FormatIsWord(t: DateTime)
    requires ValidDateTime(t) && 1969 <= t.year <= 2068
    ensures Word(FormatDate(t)) && Word(FormatTime(t))
  {
    var d, c := FormatDate(t), FormatTime(t);
    assert |d| == 8 && |c| == 7;
    assert forall i :: 0 <= i < |d| ==> IsDigit(d[i]) || d[i] == '/';
    assert forall i :: 0 <= i < |c| ==> IsDigit(c[i]) || c[i] in ":APM";
  }

  /** A line in that layout qualifies for its own path. */
  lemma LogLineQualifies(t: DateTime, word: string, hash: string, isDir: bool, p: string)
    requires ValidDateTime(t) && 1969 <= t.year <= 2068
    requires Word(word) && Word(hash) && |hash| == 32 && Word(p)
    ensures Qualifies(LogLine(t, word, hash, isDir, p), p)
  {
    var l := LogLine(t, word, hash, isDir, p);
    LogLineFields(t, word, hash, isDir, p);
    QualifiesWithoutSubstringTest(l, p);
    assert l[..2] == "I ";
  }

  /** Appending a line for a resource makes the lookup report exactly what that line says:
      its last path piece as name, its directory flag and its time. */
  lemma LatestLineWins(lines: seq<string>, t: DateTime, word: string, hash: string, isDir: bool,
                       prefix: string, path: string)
    requires ValidDateTime(t) && 1969 <= t.year <= 2068
    requires Word(word) && Word(hash) && |hash| == 32 && Word(PrefixedPath(prefix, path))
    ensures var p := PrefixedPath(prefix, path);
      GetInfoRemote(lines + [LogLine(t, word, hash, isDir, p)], prefix, path)
        == Ok(RemoteInfo(Basename(p), isDir, EpochSeconds(t)))
  {
    var p := PrefixedPath(prefix, path);
    var l := LogLine(t, word, hash, isDir, p);
    var all := lines + [l];
    LogLineQualifies(t, word, hash, isDir, p);
    LogLineFields(t, word, hash, isDir, p);
    assert all[|all| - 1] == l;
    assert LastWanted(all, p, true) == Some(|lines|);
    GetInfoRemoteLatest(all, prefix, path);
    ParseFormatRoundTrip(t);
    FlagValue(isDir);
  }

  lemma FlagValue(isDir: bool)
    ensures ParseInt(if isDir then "1" else "0") == Some(if isDir then 1 else 0)
  {
    var c := if isDir then '1' else '0';
    assert (if isDir then "1" else "0") == [c];
    ParseIntOfDigit(c);
  }

  /** A log holding one line for `q` answers for every string prefix `p` of `q` with an
      intermediate directory named after the last piece of `p`, at that line's time. */
  lemma LineBelowReadsAsDirectory(t: DateTime, word: string, hash: string, isDir: bool, p: string, q: string)
    requires ValidDateTime(t) && 1969 <= t.year <= 2068
    requires Word(word) && Word(hash) && |hash| == 32 && Word(q)
    requires StartsWith(q, p) && q != p
    ensures GetInfoRemote([LogLine(t, word, hash, isDir, q)], "", p)
      == Ok(RemoteInfo(Basename(p), true, EpochSeconds(t)))
  {
    var l := LogLine(t, word, hash, isDir, q);
    LogLineFields(t, word, hash, isDir, q);
    QualifiesWithoutSubstringTest(l, p);
    assert l[..2] == "I ";
    assert Qualifies(l, p);
    assert !Wanted(l, p, true);
    assert LastWanted([l], p, true) == None;
    assert LastWanted([l], p, false) == Some(0);
    GetInfoRemoteLatest([l], "", p);
    ParseFormatRoundTrip(t);
  }

  /** The path test is a plain string prefix: with only a file `/a/bc` in the log, the
      lookup of `/a/b` reports `b` as an intermediate directory. */
  lemma SiblingPrefixReadsAsDirectory(t: DateTime, word: string, hash: string)
    requires ValidDateTime(t) && 1969 <= t.year <= 2068
    requires Word(word) && Word(hash) && |hash| == 32
    ensures GetInfoRemote([LogLine(t, word, hash, false, "/a/bc")], "", "/a/b")
      == Ok(RemoteInfo("b", true, EpochSeconds(t)))
  {
    assert Word("/a/bc") && StartsWith("/a/bc", "/a/b");
    LineBelowReadsAsDirectory(t, word, hash, false, "/a/b", "/a/bc");
    assert LastSlash("/a/b") == Some(2);
  }
}

=== FILE: Paths.dfy ===
/** The path helpers of PyFilesystem2's `fs.path` that the core calls (`split`,
    `dirname`, `isparent`, `forcedir`, `frombase`, `normpath`, `relpath`), and the
    root-prefix mapping of `CrashPlanFS` (src/fs_crashplanfs/crashplan.py:125, 197-199). */
module Paths {
  import opened Wrappers
  import opened Text

  predicate NoSlash(s: string) {
    '/' !in s
  }

  /** Python's `s.split('/')`: the pieces between slashes, empty ones included. */
  function SplitSlash(s: string): (r: seq<string>)
    ensures |r| >= 1
  {
    if s == [] then [""]
    else
      var rest := SplitSlash(s[1..]);
      if s[0] == '/' then [""] + rest else [[s[0]] + rest[0]] + rest[1..]
  }

  /** Python's `'/'.join(cs)`. */
  function JoinSlash(cs: seq<string>): string {
    if cs == [] then ""
    else if |cs| == 1 then cs[0]
    else cs[0] + "/" + JoinSlash(cs[1..])
  }

  lemma {:induction false} SplitSlashOfSlashFree(a: string)
    requires NoSlash(a)
    ensures SplitSlash(a) == [a]
  {
    if a != [] {
      SplitSlashOfSlashFree(a[1..]);
      assert [a[0]] + a[1..] == a;
    }
  }

  lemma {:induction false} SplitSlashAppend(a: string, b: string)
    requires NoSlash(a)
    ensures SplitSlash(a + "/" + b) == [a] + SplitSlash(b)
  {
    if a == [] {
      assert ("/" + b)[1..] == b;
    } else {
      var t := a + "/" + b;
      assert t[1..] == a[1..] + "/" + b;
      SplitSlashAppend(a[1..], b);
      assert [a[0]] + a[1..] == a;
    }
  }

  /** Splitting a slash-joined list of slash-free pieces gives the pieces back. */
  lemma {:induction false} SplitSlashOfJoin(cs: seq<string>)
    requires cs != []
    requires forall k :: 0 <= k < |cs| ==> NoSlash(cs[k])
    ensures SplitSlash(JoinSlash(cs)) == cs
  {
    if |cs| == 1 {
      SplitSlashOfSlashFree(cs[0]);
    } else {
      SplitSlashAppend(cs[0], JoinSlash(cs[1..]));
      SplitSlashOfJoin(cs[1..]);
      assert cs == [cs[0]] + cs[1..];
    }
  }

  /** `bits` without its trailing empty pieces, as the `while bits1[-1] == ""` loop of
      `isparent` leaves it. */
  function DropTrailingEmpty(bits: seq<string>): (r: seq<string>)
    ensures |r| <= |bits| && r == bits[..|r|]
    ensures r == [] || r[|r| - 1] != ""
  {
    if bits != [] && bits[|bits| - 1] == "" then DropTrailingEmpty(bits[..|bits| - 1]) else bits
  }

  /** `fs.path.isparent(p1, p2)`: the pieces of `p1`, trailing empty ones dropped, are a
      leading run of the pieces of `p2`. */
  predicate IsParent(p1: string, p2: string) {
    var b1 := DropTrailingEmpty(SplitSlash(p1));
    var b2 := SplitSlash(p2);
    |b1| <= |b2| && b2[..|b1|] == b1
  }

  predicate EndsWithSlash(s: string) {
    s != [] && s[|s| - 1] == '/'
  }

  /** `fs.path.forcedir`. */
  function ForceDir(p: string): (r: string)
    ensures EndsWithSlash(r)
    ensures StartsWith(r, p) && |r| <= |p| + 1
  {
    if EndsWithSlash(p) then p else p + "/"
  }

  /** The text of `s` before its first slash, as `s.split('/')[0]`. */
  function FirstSegment(s: string): (r: string)
    ensures StartsWith(s, r) && NoSlash(r)
    ensures |r| < |s| ==> s[|r|] == '/'
  {
    if s == [] || s[0] == '/' then [] else [s[0]] + FirstSegment(s[1..])
  }

  /** The piece of `path` right after `dir/`, as
      `frombase(forcedir(dir), path).split('/')[0]`; a slice past the end is empty in Python. */
  function ChildSegment(dir: string, path: string): (r: string)
    ensures NoSlash(r)
    ensures r != [] ==> var n := |ForceDir(dir)|; n + |r| <= |path| && path[n..n + |r|] == r
    ensures r != [] ==> var n := |ForceDir(dir)| + |r|; n == |path| || path[n] == '/'
  {
    var fd := ForceDir(dir);
    var rest := if |fd| <= |path| then path[|fd|..] else "";
    FirstSegment(rest)
  }

  /** The index of the last slash of `s`, as `s.rfind('/')` when it is not -1. */
  function LastSlash(s: string): (r: Option<nat>)
    ensures r.Some? ==> r.value < |s| && s[r.value] == '/' && NoSlash(s[r.value + 1..])
    ensures r.None? ==> NoSlash(s)
  {
    if s == [] then None
    else if s[|s| - 1] == '/' then Some(|s| - 1)
    else
      var r := LastSlash(s[..|s| - 1]);
      assert s[..|s| - 1] + [s[|s| - 1]] == s;
      if r.Some? then assert s[r.value + 1..] == s[..|s| - 1][r.value + 1..] + [s[|s| - 1]]; r
      else r
  }

  /** `fs.path.dirname`: the head of `fs.path.split`, `""` for a path without a slash,
      `"/"` when the only slash leads the path. */
  function Dirname(p: string): (d: string)
    ensures |d| <= |p|
    ensures p != [] && p[0] == '/' ==> d != [] && d[0] == '/'
    ensures p != [] && p[0] == '/' && p != "/" ==> |d| < |p|
  {
    match LastSlash(p)
    case None => ""
    case Some(i) => if i == 0 then "/" else p[..i]
  }

  /** The tail of `fs.path.split` and of `os.path.split`: the text after the last slash. */
  function Basename(p: string): (b: string)
    ensures NoSlash(b)
  {
    match LastSlash(p)
    case None => p
    case Some(i) => p[i + 1..]
  }

  /** An absolute path splits into its directory and its last piece without losing text:
      the head, a slash unless the head is the root, and the tail give `p` back. */
  lemma DirnameBasename(p: string)
    requires p != [] && p[0] == '/' && !StartsWith(p, "//")
    ensures NoSlash(Basename(p))
    ensures p == (if Dirname(p) == "/" then "/" else Dirname(p) + "/") + Basename(p)
  {
    var i := LastSlash(p).value;
    if i == 0 {
      assert p == "/" + p[1..];
    } else {
      assert p == p[..i] + "/" + p[i + 1..];
      assert p[..i][0] == '/';
    }
  }

  predicate EndsWith(s: string, r: string) {
    |r| <= |s| && s[|s| - |r|..] == r
  }

  /** `s.lstrip('/')`. */
  function LStripSlash(s: string): (r: string)
    ensures r == [] || r[0] != '/'
    ensures EndsWith(s, r)
  {
    if s != [] && s[0] == '/' then
      var r := LStripSlash(s[1..]);
      assert s[1..][|s| - 1 - |r|..] == s[|s| - |r|..];
      r
    else s
  }

  /** `s.rstrip('/')`. */
  function RStripSlash(s: string): (r: string)
    ensures !EndsWithSlash(r)
    ensures StartsWith(s, r)
  {
    if EndsWithSlash(s) then RStripSlash(s[..|s| - 1]) else s
  }

  /** The piece-by-piece pass of `fs.path.normpath`: `""` and `"."` are dropped, `".."`
      drops the piece before it, and a `".."` with nothing before it is an
      IllegalBackReference (`None`). */
  function Resolve(acc: seq<string>, parts: seq<string>): (r: Option<seq<string>>)
    decreases |parts|
  {
    if parts == [] then Some(acc)
    else
      var c := parts[0];
      if c == ".." then
        if acc == [] then None else Resolve(acc[..|acc| - 1], parts[1..])
      else if c == "" || c == "." then Resolve(acc, parts[1..])
      else Resolve(acc + [c], parts[1..])
  }

  /** A piece that `Resolve` keeps. */
  predicate IsName(c: string) {
    c != "" && c != "." && c != ".." && NoSlash(c)
  }

  /** Every piece `Resolve` returns is a name. */
  lemma {:induction false} ResolveKeepsNames(acc: seq<string>, parts: seq<string>)
    requires forall k :: 0 <= k < |acc| ==> IsName(acc[k])
    requires forall k :: 0 <= k < |parts| ==> NoSlash(parts[k])
    requires Resolve(acc, parts).Some?
    ensures forall k :: 0 <= k < |Resolve(acc, parts).value| ==> IsName(Resolve(acc, parts).value[k])
    decreases |parts|
  {
    if parts != [] {
      var c := parts[0];
      if c == ".." {
        ResolveKeepsNames(acc[..|acc| - 1], parts[1..]);
      } else if c == "" || c == "." {
        ResolveKeepsNames(acc, parts[1..]);
      } else {
        ResolveKeepsNames(acc + [c], parts[1..]);
      }
    }
  }

  /** A list of names needs no resolving. */
  lemma {:induction false} ResolveNames(acc: seq<string>, parts: seq<string>)
    requires forall k :: 0 <= k < |parts| ==> IsName(parts[k])
    ensures Resolve(acc, parts) == Some(acc + parts)
    decreases |parts|
  {
    if parts != [] {
      var c := parts[0];
      assert c != ".." && c != "" && c != ".";
      assert Resolve(acc, parts) == Resolve(acc + [c], parts[1..]);
      ResolveNames(acc + [parts[0]], parts[1..]);
      assert acc + [parts[0]] + parts[1..] == acc + parts;
    } else {
      assert acc + parts == acc;
    }
  }

  /** `fs.path.normpath`, with its early exit folded into the general pass (both give the
      same text on the paths the early exit accepts). */
  function NormPath(p: string): Option<string> {
    if p == "" || p == "/" then Some(p)
    else
      var root := if p[0] == '/' then "/" else "";
      match Resolve([], SplitSlash(p))
      case None => None
      case Some(cs) => Some(root + JoinSlash(cs))
  }

  /** `fs.path.abspath`: a leading slash is added when missing. */
  function AbsPath(p: string): (r: string)
    ensures r != [] && r[0] == '/'
    ensures EndsWith(r, p) && |r| <= |p| + 1
  {
    if p != [] && p[0] == '/' then p else "/" + p
  }

  /** The normalising part of `FS.validatepath`: `abspath(normpath(p))`, or `None` for
      the IllegalBackReference that `normpath` raises. */
  function ValidatePath(p: string): (r: Option<string>)
    ensures r.Some? <==> NormPath(p).Some?
    ensures r.Some? ==> r.value != [] && r.value[0] == '/'
  {
    match NormPath(p)
    case None => None
    case Some(n) => Some(AbsPath(n))
  }

  /** A back reference that climbs back to the root validates to the root itself. */
  lemma ValidateBackToRoot()
    ensures ValidatePath("/a/..") == Some("/") && ComputePrefix("/a/..") == Some("")
  {
    var p := "/a/..";
    assert SplitSlash(p) == ["", "a", ".."] by {
      SplitSlashLead("a/..");
      SplitSlashAppend("a", "..");
      SplitSlashOfSlashFree("..");
      assert p == "/" + "a/.." && "a/.." == "a" + "/" + "..";
    }
    assert Resolve([], ["", "a", ".."]) == Some([]);
    assert p != "" && p != "/" && p[0] == '/';
    assert "/" + JoinSlash([]) == "/";
    assert NormPath(p) == Some("/");
  }

  /** The prefix a filesystem rooted at `dirPath` prepends to its paths:
      `relpath(normpath(dir_path)).rstrip('/')`. */
  function ComputePrefix(dirPath: string): Option<string> {
    match NormPath(dirPath)
    case None => None
    case Some(n) => Some(RStripSlash(LStripSlash(n)))
  }

  /** The prefix never starts or ends with a slash. */
  lemma PrefixHasNoOuterSlash(dirPath: string)
    requires ComputePrefix(dirPath).Some?
    ensures var q := ComputePrefix(dirPath).value; q == [] || (q[0] != '/' && q[|q| - 1] != '/')
  {
    var n := NormPath(dirPath).value;
    var l := LStripSlash(n);
    var q := RStripSlash(l);
    if q != [] {
      assert q[0] == l[0];
    }
  }

  lemma {:induction false} JoinSlashAppend(cs: seq<string>, c: string)
    requires cs != []
    ensures JoinSlash(cs + [c]) == JoinSlash(cs) + "/" + c
  {
    if |cs| > 1 {
      assert (cs + [c])[1..] == cs[1..] + [c];
      JoinSlashAppend(cs[1..], c);
    }
  }

  lemma JoinSlashEnds(cs: seq<string>)
    requires cs != [] && cs[0] != [] && cs[|cs| - 1] != []
    ensures var j := JoinSlash(cs); j != [] && j[0] == cs[0][0] && j[|j| - 1] == cs[|cs| - 1][|cs[|cs| - 1]| - 1]
  {
    if |cs| > 1 {
      var init := cs[..|cs| - 1];
      assert init + [cs[|cs| - 1]] == cs;
      JoinSlashAppend(init, cs[|cs| - 1]);
    }
  }

  lemma {:induction false} ResolveAppend(acc: seq<string>, a: seq<string>, b: seq<string>)
    requires Resolve(acc, a).Some?
    ensures Resolve(acc, a + b) == Resolve(Resolve(acc, a).value, b)
    decreases |a|
  {
    if a == [] {
      assert a + b == b;
    } else {
      assert (a + b)[1..] == a[1..] + b;
      var c := a[0];
      assert (a + b)[0] == c;
      if c == ".." {
        ResolveAppend(acc[..|acc| - 1], a[1..], b);
      } else if c == "" || c == "." {
        ResolveAppend(acc, a[1..], b);
      } else {
        ResolveAppend(acc + [c], a[1..], b);
      }
    }
  }

  lemma SplitSlashLead(x: string)
    ensures SplitSlash("/" + x) == [""] + SplitSlash(x)
  {
    assert ("/" + x)[1..] == x;
  }

  lemma SplitOfAbsolute(cs: seq<string>)
    requires cs != []
    requires forall k :: 0 <= k < |cs| ==> NoSlash(cs[k])
    ensures SplitSlash("/" + JoinSlash(cs)) == [""] + cs
  {
    SplitSlashOfJoin(cs);
    SplitSlashLead(JoinSlash(cs));
  }

  lemma ResolveOfAbsolute(cs: seq<string>)
    requires forall k :: 0 <= k < |cs| ==> IsName(cs[k])
    ensures Resolve([], [""] + cs) == Some(cs)
  {
    ResolveNames([], cs);
    assert [] + cs == cs;
    var lead := [""] + cs;
    assert lead[0] == "" && lead[1..] == cs;
  }

  /** A directory given in normal form, `/a/b`, yields the prefix `a/b`. */
  lemma ComputePrefixOfNormal(cs: seq<string>)
    requires cs != []
    requires forall k :: 0 <= k < |cs| ==> IsName(cs[k])
    ensures ComputePrefix("/" + JoinSlash(cs)) == Some(JoinSlash(cs))
  {
    var j := JoinSlash(cs);
    var p := "/" + j;
    assert forall k :: 0 <= k < |cs| ==> NoSlash(cs[k]);
    SplitOfAbsolute(cs);
    ResolveOfAbsolute(cs);
    JoinSlashEnds(cs);
    assert p != "" && p != "/" && p[0] == '/';
    assert NormPath(p) == Some("/" + j);
    assert p[1..] == j;
    assert LStripSlash(p) == j;
  }

  /** `_get_prefixed_path`: the identity without a prefix, otherwise
      `'/' + os.path.join(prefix, path.lstrip('/'))`; the prefix never ends in a slash,
      so the join puts exactly one slash between the two. */
  function PrefixedPath(prefix: string, path: string): string {
    if prefix == "" then path else "/" + prefix + "/" + LStripSlash(path)
  }

  lemma {:induction false} SplitSlashJoinThen(cs: seq<string>, r: string)
    requires cs != []
    requires forall k :: 0 <= k < |cs| ==> NoSlash(cs[k])
    ensures SplitSlash(JoinSlash(cs) + "/" + r) == cs + SplitSlash(r)
  {
    if |cs| == 1 {
      SplitSlashAppend(cs[0], r);
    } else {
      var t := JoinSlash(cs[1..]) + "/" + r;
      assert JoinSlash(cs) + "/" + r == cs[0] + "/" + t;
      assert SplitSlash(cs[0] + "/" + t) == [cs[0]] + SplitSlash(t) by { SplitSlashAppend(cs[0], t); }
      assert SplitSlash(t) == cs[1..] + SplitSlash(r) by { SplitSlashJoinThen(cs[1..], r); }
      assert cs == [cs[0]] + cs[1..];
    }
  }

  lemma IsParentOfExtension(p1: string, p2: string, rest: seq<string>)
    requires SplitSlash(p1)[|SplitSlash(p1)| - 1] != ""
    requires SplitSlash(p2) == SplitSlash(p1) + rest
    ensures IsParent(p1, p2)
  {
    var b1 := SplitSlash(p1);
    assert DropTrailingEmpty(b1) == b1;
    assert SplitSlash(p2)[..|b1|] == b1;
  }

  lemma SplitOfPrefixed(cs: seq<string>, r: string)
    requires cs != []
    requires forall k :: 0 <= k < |cs| ==> NoSlash(cs[k])
    ensures SplitSlash("/" + JoinSlash(cs) + "/" + r) == [""] + cs + SplitSlash(r)
  {
    var x := JoinSlash(cs) + "/" + r;
    assert SplitSlash(x) == cs + SplitSlash(r) by { SplitSlashJoinThen(cs, r); }
    assert SplitSlash("/" + x) == [""] + SplitSlash(x) by { SplitSlashLead(x); }
    assert "/" + x == "/" + JoinSlash(cs) + "/" + r;
  }

  /** With a prefix `a/b` from `ComputePrefix`, every prefixed path lies in the subtree of
      `/a/b` in the sense of `isparent`. */
  lemma PrefixedPathInPrefix(cs: seq<string>, path: string)
    requires cs != []
    requires forall k :: 0 <= k < |cs| ==> IsName(cs[k])
    ensures IsParent("/" + JoinSlash(cs), PrefixedPath(JoinSlash(cs), path))
  {
    var j := JoinSlash(cs);
    var r := LStripSlash(path);
    assert forall k :: 0 <= k < |cs| ==> NoSlash(cs[k]);
    JoinSlashEnds(cs);
    assert SplitSlash("/" + j) == [""] + cs by { SplitOfAbsolute(cs); }
    assert SplitSlash("/" + j + "/" + r) == [""] + cs + SplitSlash(r) by { SplitOfPrefixed(cs, r); }
    IsParentOfExtension("/" + j, "/" + j + "/" + r, SplitSlash(r));
  }

  /** Splitting at a slash splits each side: `(a + '/' + b).split('/')` is
      `a.split('/') + b.split('/')`. */
  lemma {:induction false} SplitSlashConcat(a: string, b: string)
    ensures SplitSlash(a + "/" + b) == SplitSlash(a) + SplitSlash(b)
  {
    if a == [] {
      SplitSlashLead(b);
      assert a + "/" + b == "/" + b;
    } else {
      var t := a + "/" + b;
      assert t[1..] == a[1..] + "/" + b;
      SplitSlashConcat(a[1..], b);
    }
  }

  /** Whatever follows `forcedir(dir)` lies under `dir` in the sense of `isparent`. */
  lemma IsParentOfChild(dir: string, rest: string)
    ensures IsParent(dir, ForceDir(dir) + rest)
  {
    var d := if EndsWithSlash(dir) then dir[..|dir| - 1] else dir;
    assert ForceDir(dir) + rest == d + "/" + rest;
    SplitSlashConcat(d, rest);
    if EndsWithSlash(dir) {
      assert dir == d + "/" + "";
      SplitSlashConcat(d, "");
      var bits := SplitSlash(d) + [""];
      assert bits[..|bits| - 1] == SplitSlash(d);
    }
  }

  lemma {:induction false} FirstSegmentOfName(name: string, tail: string)
    requires NoSlash(name)
    requires tail == [] || tail[0] == '/'
    ensures FirstSegment(name + tail) == name
  {
    if name != [] {
      assert (name + tail)[1..] == name[1..] + tail;
      FirstSegmentOfName(name[1..], tail);
      assert [name[0]] + name[1..] == name;
    }
  }

  /** The piece `listdir` takes from a path below `dir` is the first name after `dir/`. */
  lemma ChildSegmentOfChild(dir: string, name: string, tail: string)
    requires NoSlash(name)
    requires tail == [] || tail[0] == '/'
    ensures ChildSegment(dir, ForceDir(dir) + name + tail) == name
  {
    var fd := ForceDir(dir);
    var path := fd + name + tail;
    assert path[|fd|..] == name + tail;
    FirstSegmentOfName(name, tail);
  }
}

=== FILE: Text.dfy ===
/** The few Python 2 `str` operations the core relies on: `split()` with no
    argument, `startswith`, the `in` substring test and `int()`. */
module Text {
  import opened Wrappers

  /** The bytes that Python 2's `str.split()` treats as whitespace. */
  predicate IsSpace(c: char) {
    c == ' ' || c == '\t' || c == '\n' || c == '\r' || c == 11 as char || c == 12 as char
  }

  predicate NoSpace(w: string) {
    forall i :: 0 <= i < |w| ==> !IsSpace(w[i])
  }

  /** The length of the longest prefix of `s` holding no whitespace. */
  function WordLength(s: string): (n: nat)
    ensures n <= |s|
    ensures n < |s| ==> IsSpace(s[n])
    ensures s != [] && !IsSpace(s[0]) ==> n > 0
  {
    if s == [] || IsSpace(s[0]) then 0 else 1 + WordLength(s[1..])
  }

  lemma {:induction false} WordHasNoSpace(s: string)
    ensures NoSpace(s[..WordLength(s)])
  {
    if s != [] && !IsSpace(s[0]) {
      WordHasNoSpace(s[1..]);
      assert s[..WordLength(s)] == [s[0]] + s[1..][..WordLength(s[1..])];
    }
  }

  /** Python's `s.split()`: the maximal runs of non-whitespace, in order. */
  function Fields(s: string): (r: seq<string>)
    decreases |s|
  {
    if s == [] then []
    else if IsSpace(s[0]) then Fields(s[1..])
    else
      var n := WordLength(s);
      [s[..n]] + Fields(s[n..])
  }

  /** Every field is a non-empty word without whitespace. */
  lemma {:induction false} FieldsAreWords(s: string)
    ensures forall k :: 0 <= k < |Fields(s)| ==> Fields(s)[k] != [] && NoSpace(Fields(s)[k])
    decreases |s|
  {
    if s != [] {
      if IsSpace(s[0]) {
        FieldsAreWords(s[1..]);
      } else {
        WordHasNoSpace(s);
        FieldsAreWords(s[WordLength(s)..]);
      }
    }
  }

  /** The words joined by single blanks, as `' '.join(ws)`. */
  function Join(ws: seq<string>): string {
    if ws == [] then ""
    else if |ws| == 1 then ws[0]
    else ws[0] + " " + Join(ws[1..])
  }

  lemma {:induction false} WordLengthOfWordThenSpace(w: string, rest: string)
    requires NoSpace(w)
    requires rest == [] || IsSpace(rest[0])
    ensures WordLength(w + rest) == |w|
  {
    if w != [] {
      assert (w + rest)[1..] == w[1..] + rest;
      WordLengthOfWordThenSpace(w[1..], rest);
    }
  }

  lemma FieldsSkipsLeadingSpace(s: string)
    ensures Fields(" " + s) == Fields(s)
  {
    assert (" " + s)[1..] == s;
  }

  /** A word followed by whitespace or nothing is the first field. */
  lemma FieldsOfWordThen(w: string, rest: string)
    requires w != [] && NoSpace(w)
    requires rest == [] || IsSpace(rest[0])
    ensures Fields(w + rest) == [w] + Fields(rest)
  {
    var s := w + rest;
    WordLengthOfWordThenSpace(w, rest);
    assert s[..|w|] == w;
    assert s[|w|..] == rest;
  }

  /** Splitting a blank-joined list of non-empty words gives the words back. */
  lemma {:induction false} FieldsOfJoin(ws: seq<string>)
    requires forall k :: 0 <= k < |ws| ==> ws[k] != [] && NoSpace(ws[k])
    ensures Fields(Join(ws)) == ws
  {
    if |ws| == 1 {
      FieldsOfWordThen(ws[0], "");
      assert ws[0] + "" == ws[0];
    } else if |ws| > 1 {
      var rest := " " + Join(ws[1..]);
      assert Join(ws) == ws[0] + rest;
      FieldsOfWordThen(ws[0], rest);
      FieldsSkipsLeadingSpace(Join(ws[1..]));
      FieldsOfJoin(ws[1..]);
      assert ws == [ws[0]] + ws[1..];
    }
  }

  /** Python's `s.startswith(p)`. */
  predicate StartsWith(s: string, p: string) {
    |p| <= |s| && s[..|p|] == p
  }

  /** Python's `p in s` for strings. */
  predicate Contains(s: string, p: string)
    decreases |s|
  {
    StartsWith(s, p) || (s != [] && Contains(s[1..], p))
  }

  /** `Contains` holds exactly when `p` occurs in `s` at some offset. */
  lemma {:induction false} ContainsAt(s: string, p: string, i: nat)
    requires i + |p| <= |s| && s[i..i + |p|] == p
    ensures Contains(s, p)
    decreases i
  {
    if i > 0 {
      assert s[1..][i - 1..i - 1 + |p|] == p;
      ContainsAt(s[1..], p, i - 1);
    }
  }

  /** Every field of `s` is a slice of `s`. */
  lemma {:induction false} FieldAt(s: string, k: nat) returns (i: nat)
    requires k < |Fields(s)|
    ensures i + |Fields(s)[k]| <= |s| && s[i..i + |Fields(s)[k]|] == Fields(s)[k]
    decreases |s|
  {
    if IsSpace(s[0]) {
      var j := FieldAt(s[1..], k);
      ShiftSlice(s, s[1..], 1, j, Fields(s[1..])[k]);
      i := 1 + j;
    } else {
      var n := WordLength(s);
      if k == 0 {
        i := 0;
      } else {
        var j := FieldAt(s[n..], k - 1);
        ShiftSlice(s, s[n..], n, j, Fields(s[n..])[k - 1]);
        i := n + j;
      }
    }
  }

  lemma ShiftSlice(s: string, u: string, m: nat, j: nat, f: string)
    requires m <= |s| && u == s[m..] && j + |f| <= |u| && u[j..j + |f|] == f
    ensures m + j + |f| <= |s| && s[m + j..m + j + |f|] == f
  {
    assert s[m + j..m + j + |f|] == u[j..j + |f|];
  }

  /** A prefix of a field of `s` is a substring of `s`: the `s in l` pre-filter is implied by
      the field-6 prefix test. */
  lemma FieldPrefixIsContained(s: string, k: nat, p: string)
    requires k < |Fields(s)| && StartsWith(Fields(s)[k], p)
    ensures Contains(s, p)
  {
    var f := Fields(s)[k];
    var i := FieldAt(s, k);
    assert s[i..i + |p|] == f[..|p|];
    ContainsAt(s, p, i);
  }

  /** The index of the first `c` in `s`, as `s.find(c)` when it is not -1. */
  function FindChar(s: string, c: char): (r: Option<nat>)
    ensures r.Some? ==> r.value < |s| && s[r.value] == c && c !in s[..r.value]
    ensures r.None? ==> c !in s
  {
    if s == [] then None
    else if s[0] == c then Some(0)
    else
      match FindChar(s[1..], c)
      case None => None
      case Some(i) =>
        assert s[..i + 1] == [s[0]] + s[1..][..i];
        Some(i + 1)
  }

  /** The first `c` in `a + [c] + b` is at `|a|` when `a` holds none. */
  lemma {:induction false} FindCharAfter(a: string, c: char, b: string)
    requires c !in a
    ensures FindChar(a + [c] + b, c) == Some(|a|)
  {
    if a != [] {
      assert (a + [c] + b)[1..] == a[1..] + [c] + b;
      FindCharAfter(a[1..], c, b);
    }
  }

  predicate IsDigit(c: char) { '0' <= c <= '9' }

  predicate AllDigits(s: string) {
    forall i :: 0 <= i < |s| ==> IsDigit(s[i])
  }

  function DigitValue(c: char): (d: nat)
    requires IsDigit(c)
    ensures d <= 9
  {
    (c as int) - ('0' as int)
  }

  /** The value of a string of decimal digits, most significant first. */
  function DigitsValue(s: string): nat
    requires AllDigits(s)
  {
    if s == [] then 0 else DigitsValue(s[..|s| - 1]) * 10 + DigitValue(s[|s| - 1])
  }

  lemma TwoDigitsValue(s: string)
    requires |s| == 2 && AllDigits(s)
    ensures DigitsValue(s) == DigitValue(s[0]) * 10 + DigitValue(s[1])
  {
    var init := s[..1];
    assert AllDigits(init) && init[..0] == [] && init[0] == s[0];
    assert DigitsValue(init) == DigitValue(s[0]);
  }

  /** Python 2's `int(s)` on a whitespace-free token: an optional sign, then at least one
      decimal digit; anything else raises ValueError (`None` here). */
  function ParseInt(s: string): Option<int> {
    if s == [] then None
    else if s[0] == '+' || s[0] == '-' then
      var ds := s[1..];
      if ds != [] && AllDigits(ds) then
        Some(if s[0] == '-' then -(DigitsValue(ds) as int) else DigitsValue(ds))
      else None
    else if AllDigits(s) then Some(DigitsValue(s))
    else None
  }

  lemma ParseIntOfDigit(c: char)
    requires IsDigit(c)
    ensures ParseInt([c]) == Some(DigitValue(c))
  {
    var s := [c];
    assert s[0] != '+' && s[0] != '-' && AllDigits(s);
    assert s[..|s| - 1] == [] && s[|s| - 1] == c;
    assert DigitsValue(s) == DigitValue(c);
  }

  predicate AllZeros(s: string) {
    forall i :: 0 <= i < |s| ==> s[i] == '0'
  }

  lemma {:induction false} DigitsValueZero(s: string)
    requires AllDigits(s)
    ensures DigitsValue(s) == 0 <==> AllZeros(s)
  {
    if s != [] {
      var init := s[..|s| - 1];
      DigitsValueZero(init);
      if AllZeros(s) {
        assert AllZeros(init);
      }
      if DigitsValue(s) == 0 {
        assert DigitsValue(init) == 0 && s[|s| - 1] == '0';
        assert forall i :: 0 <= i < |s| - 1 ==> s[i] == init[i];
      }
    }
  }

  lemma DigitsValueOne(s: string)
    requires AllDigits(s)
    ensures DigitsValue(s) == 1 <==> (s != [] && s[|s| - 1] == '1' && AllZeros(s[..|s| - 1]))
  {
    if s != [] {
      DigitsValueZero(s[..|s| - 1]);
    }
  }

  /** `int(f) == 1` holds exactly for a `1` written with an optional `+` and leading zeros. */
  lemma ParseIntIsOne(s: string)
    ensures ParseInt(s) == Some(1) <==>
      (var ds := if s != [] && s[0] == '+' then s[1..] else s;
       ds != [] && ds[|ds| - 1] == '1' && AllZeros(ds[..|ds| - 1]))
  {
    if s != [] {
      if s[0] == '+' || s[0] == '-' {
        var ds := s[1..];
        if ds != [] && AllDigits(ds) { DigitsValueOne(ds); }
        if s[0] == '-' && ds != [] && AllDigits(ds) {
          assert -(DigitsValue(ds) as int) != 1;
        }
        if s[0] == '+' && ds != [] && ds[|ds| - 1] == '1' && AllZeros(ds[..|ds| - 1]) {
          assert AllDigits(ds);
        }
      } else {
        if AllDigits(s) { DigitsValueOne(s); }
        if s[|s| - 1] == '1' && AllZeros(s[..|s| - 1]) {
          assert AllDigits(s);
        }
      }
    }
  }
}

=== FILE: Timestamps.dfy ===
/** The modification time of a log entry: fields 1 and 2 of the line, joined by a blank
    and read with Python 2's `datetime.strptime(date_str, '%m/%d/%y %I:%M%p')`, then
    counted in seconds from 1970-01-01T00:00 with no time-zone shift
    (src/fs_crashplanfs/crashplan.py:183-186). */
module Timestamps {
  import opened Wrappers
  import opened Text

  /** A wall-clock minute; `hour` is on the 24-hour clock. */
  datatype DateTime = DateTime(year: int, month: int, day: int, hour: int, minute: int)

  predicate IsLeap(y: int) {
    y % 4 == 0 && (y % 100 != 0 || y % 400 == 0)
  }

  function DaysInMonth(y: int, m: int): int
    requires 1 <= m <= 12
  {
    if m == 2 then (if IsLeap(y) then 29 else 28)
    else if m == 4 || m == 6 || m == 9 || m == 11 then 30
    else 31
  }

  function YearLength(y: int): int {
    if IsLeap(y) then 366 else 365
  }

  /** What `datetime(...)` accepts (the year is always in 1969..2068 here). */
  predicate ValidDateTime(t: DateTime) {
    && 1 <= t.year
    && 1 <= t.month <= 12
    && 1 <= t.day <= DaysInMonth(t.year, t.month)
    && 0 <= t.hour < 24
    && 0 <= t.minute < 60
  }

  /** Days from 0001-01-01 to the first day of year `y`, in the proleptic Gregorian
      calendar that Python's `datetime` uses. */
  function DaysBeforeYear(y: int): int {
    var z := y - 1;
    z * 365 + z / 4 - z / 100 + z / 400
  }

  function DaysBeforeMonth(y: int, m: int): int
    requires 1 <= m <= 12
  {
    var table := [0, 31, 59, 90, 120, 151, 181, 212, 243, 273, 304, 334];
    table[m - 1] + (if m > 2 && IsLeap(y) then 1 else 0)
  }

  /** `date.toordinal()`: 0001-01-01 is day 1. */
  function Ordinal(t: DateTime): int
    requires 1 <= t.month <= 12
  {
    DaysBeforeYear(t.year) + DaysBeforeMonth(t.year, t.month) + t.day
  }

  /** `date(1970, 1, 1).toordinal()`. */
  const EpochOrdinal := 719163

  /** `(t - datetime(1970, 1, 1)).total_seconds()`; whole minutes, so a whole number. */
  function EpochSeconds(t: DateTime): int
    requires 1 <= t.month <= 12
  {
    (Ordinal(t) - EpochOrdinal) * 86400 + t.hour * 3600 + t.minute * 60
  }

  /** Chronological order of wall-clock minutes. */
  predicate Before(a: DateTime, b: DateTime) {
    || a.year < b.year
    || (a.year == b.year && a.month < b.month)
    || (a.year == b.year && a.month == b.month && a.day < b.day)
    || (a.year == b.year && a.month == b.month && a.day == b.day && a.hour < b.hour)
    || (a.year == b.year && a.month == b.month && a.day == b.day && a.hour == b.hour && a.minute < b.minute)
  }

  lemma DivStep4(z: int)
    ensures (z + 1) / 4 - z / 4 == (if (z + 1) % 4 == 0 then 1 else 0)
  {
  }

  lemma DivStep100(z: int)
    ensures (z + 1) / 100 - z / 100 == (if (z + 1) % 100 == 0 then 1 else 0)
  {
  }

  lemma DivStep400(z: int)
    ensures (z + 1) / 400 - z / 400 == (if (z + 1) % 400 == 0 then 1 else 0)
  {
  }

  /** A multiple of 400 is a multiple of 100, and a multiple of 100 one of 4. */
  lemma LeapCount(y: int)
    ensures (if IsLeap(y) then 1 else 0)
      == (if y % 4 == 0 then 1 else 0) - (if y % 100 == 0 then 1 else 0) + (if y % 400 == 0 then 1 else 0)
  {
    if y % 400 == 0 {
      assert y == 100 * (4 * (y / 400));
    }
    if y % 100 == 0 {
      assert y == 4 * (25 * (y / 100));
    }
  }

  lemma DaysBeforeYearStep(y: int)
    ensures DaysBeforeYear(y + 1) == DaysBeforeYear(y) + YearLength(y)
  {
    var z := y - 1;
    calc {
      DaysBeforeYear(y + 1) - DaysBeforeYear(y);
      365 + ((z + 1) / 4 - z / 4) - ((z + 1) / 100 - z / 100) + ((z + 1) / 400 - z / 400);
      { DivStep4(z); DivStep100(z); DivStep400(z); }
      365 + (if y % 4 == 0 then 1 else 0) - (if y % 100 == 0 then 1 else 0) + (if y % 400 == 0 then 1 else 0);
      { LeapCount(y); }
      365 + (if IsLeap(y) then 1 else 0);
      YearLength(y);
    }
  }

  lemma {:induction false} DaysBeforeYearGrows(y1: int, y2: int)
    requires y1 < y2
    ensures DaysBeforeYear(y1) + YearLength(y1) <= DaysBeforeYear(y2)
    decreases y2 - y1
  {
    DaysBeforeYearStep(y1);
    if y1 + 1 < y2 {
      DaysBeforeYearGrows(y1 + 1, y2);
    }
  }

  /** The days of month `m` come after the days before it and before the next month's. */
  lemma DaysBeforeMonthGrows(y: int, m1: int, m2: int)
    requires 1 <= m1 < m2 <= 12
    ensures DaysBeforeMonth(y, m1) + DaysInMonth(y, m1) <= DaysBeforeMonth(y, m2)
  {
  }

  lemma DayOfYearInYear(t: DateTime)
    requires ValidDateTime(t)
    ensures 1 <= DaysBeforeMonth(t.year, t.month) + t.day <= YearLength(t.year)
  {
  }

  /** Later days have larger ordinals. */
  lemma OrdinalGrows(a: DateTime, b: DateTime)
    requires ValidDateTime(a) && ValidDateTime(b)
    requires a.year < b.year || (a.year == b.year && a.month < b.month)
          || (a.year == b.year && a.month == b.month && a.day < b.day)
    ensures Ordinal(a) < Ordinal(b)
  {
    DayOfYearInYear(a);
    DayOfYearInYear(b);
    if a.year < b.year {
      DaysBeforeYearGrows(a.year, b.year);
    } else if a.month < b.month {
      DaysBeforeMonthGrows(a.year, a.month, b.month);
    }
  }

  /** Seconds since the epoch order wall-clock minutes chronologically: comparing the
      numbers, as `getinfo` and `_collect_garbage` do with `>` and `>=`, is comparing
      the times. */
  lemma EpochSecondsMonotone(a: DateTime, b: DateTime)
    requires ValidDateTime(a) && ValidDateTime(b)
    requires Before(a, b)
    ensures EpochSeconds(a) < EpochSeconds(b)
  {
    if a.year < b.year || (a.year == b.year && a.month < b.month)
       || (a.year == b.year && a.month == b.month && a.day < b.day) {
      OrdinalGrows(a, b);
    }
  }

  lemma EpochSecondsOrder(a: DateTime, b: DateTime)
    requires ValidDateTime(a) && ValidDateTime(b)
    ensures Before(a, b) <==> EpochSeconds(a) < EpochSeconds(b)
    ensures a == b <==> EpochSeconds(a) == EpochSeconds(b)
  {
    if Before(a, b) {
      EpochSecondsMonotone(a, b);
    } else if a != b {
      assert Before(b, a);
      EpochSecondsMonotone(b, a);
    }
  }

  /** A number of one or two decimal digits between `lo` and `hi`, as the `strptime`
      patterns for `%m`, `%d`, `%I` and `%M` accept it. */
  function ShortNumber(s: string, lo: int, hi: int): (r: Option<int>)
    ensures r.Some? ==> lo <= r.value <= hi
  {
    if 1 <= |s| <= 2 && AllDigits(s) && lo <= DigitsValue(s) <= hi then Some(DigitsValue(s))
    else None
  }

  /** `%y`: exactly two digits; 69..99 are the 1900s and 00..68 the 2000s. */
  function ShortYear(s: string): (r: Option<int>)
    ensures r.Some? ==> 1969 <= r.value <= 2068
  {
    if |s| == 2 && AllDigits(s) then
      TwoDigitsValue(s);
      var v := DigitsValue(s);
      Some(if v <= 68 then 2000 + v else 1900 + v)
    else None
  }

  /** `%p`, matched without regard to case. */
  function Meridiem(s: string): (r: Option<bool>)
  {
    if |s| == 2 && (s[1] == 'M' || s[1] == 'm') then
      if s[0] == 'A' || s[0] == 'a' then Some(false)
      else if s[0] == 'P' || s[0] == 'p' then Some(true)
      else None
    else None
  }

  /** `%I` with `%p`: 12AM is hour 0 and 12PM hour 12. */
  function Hour24(h12: int, pm: bool): int {
    if pm then (if h12 == 12 then 12 else h12 + 12) else (if h12 == 12 then 0 else h12)
  }

  /** The `%m/%d/%y` half: month, day and year, before the day is checked against the
      month's length. */
  function ParseDate(date: string): (r: Option<(int, int, int)>)
    ensures r.Some? ==> 1 <= r.value.0 <= 12 && 1 <= r.value.1 <= 31 && 1969 <= r.value.2 <= 2068
  {
    match FindChar(date, '/')
    case None => None
    case Some(i) =>
      var rest := date[i + 1..];
      match FindChar(rest, '/')
      case None => None
      case Some(j) =>
        var mm, dd, yy := ShortNumber(date[..i], 1, 12), ShortNumber(rest[..j], 1, 31), ShortYear(rest[j + 1..]);
        if mm.None? || dd.None? || yy.None? then None
        else Some((mm.value, dd.value, yy.value))
  }

  /** The `%I:%M%p` half: hour on the 24-hour clock and minute. */
  function ParseClock(time: string): (r: Option<(int, int)>)
    ensures r.Some? ==> 0 <= r.value.0 < 24 && 0 <= r.value.1 < 60
  {
    if |time| < 2 then None
    else
      var clock, p := time[..|time| - 2], Meridiem(time[|time| - 2..]);
      match FindChar(clock, ':')
      case None => None
      case Some(c) =>
        var hh, mi := ShortNumber(clock[..c], 1, 12), ShortNumber(clock[c + 1..], 0, 59);
        if p.None? || hh.None? || mi.None? then None
        else Some((Hour24(hh.value, p.value), mi.value))
  }

  /** `strptime(date + ' ' + time, '%m/%d/%y %I:%M%p')`; `None` where Python raises
      ValueError, which includes a day past the end of its month. */
  function ParseTimestamp(date: string, time: string): (r: Option<DateTime>)
    ensures r.Some? ==> ValidDateTime(r.value) && 1969 <= r.value.year <= 2068
  {
    match (ParseDate(date), ParseClock(time))
    case (Some((m, d, y)), Some((h, mi))) =>
      if d > DaysInMonth(y, m) then None else Some(DateTime(y, m, d, h, mi))
    case _ => None
  }

  /** Two decimal digits for `0 <= n < 100`. */
  function Two(n: int): string
    requires 0 <= n < 100
  {
    [('0' as int + n / 10) as char, ('0' as int + n % 10) as char]
  }

  /** The log's own rendering `MM/DD/YY` of a date. */
  function FormatDate(t: DateTime): string
    requires 1969 <= t.year <= 2068 && 1 <= t.month <= 12 && 1 <= t.day <= 31
  {
    Two(t.month) + "/" + Two(t.day) + "/" + Two(t.year % 100)
  }

  /** The log's own rendering `hh:mmAM` or `hh:mmPM` of a time of day. */
  function FormatTime(t: DateTime): string
    requires 0 <= t.hour < 24 && 0 <= t.minute < 60
  {
    Two(Hour12(t.hour)) + ":" + Two(t.minute) + (if t.hour < 12 then "AM" else "PM")
  }

  function Hour12(h: int): int
    requires 0 <= h < 24
  {
    if h % 12 == 0 then 12 else h % 12
  }

  lemma TwoValue(n: int)
    requires 0 <= n < 100
    ensures AllDigits(Two(n)) && DigitsValue(Two(n)) == n
    ensures '/' !in Two(n) && ':' !in Two(n)
  {
    var s := Two(n);
    assert AllDigits(s);
    TwoDigitsValue(s);
  }

  lemma ShortNumberOfTwo(n: int, lo: int, hi: int)
    requires 0 <= n < 100 && lo <= n <= hi
    ensures ShortNumber(Two(n), lo, hi) == Some(n)
  {
    TwoValue(n);
  }

  lemma ShortYearOfTwo(y: int)
    requires 1969 <= y <= 2068
    ensures ShortYear(Two(y % 100)) == Some(y)
  {
    TwoValue(y % 100);
  }

  lemma ParseDateOfFormat(t: DateTime)
    requires ValidDateTime(t) && 1969 <= t.year <= 2068
    ensures ParseDate(FormatDate(t)) == Some((t.month, t.day, t.year))
  {
    TwoValue(t.month);
    TwoValue(t.day);
    var d := FormatDate(t);
    var tail := Two(t.day) + "/" + Two(t.year % 100);
    assert d == Two(t.month) + ['/'] + tail;
    FindCharAfter(Two(t.month), '/', tail);
    assert d[..2] == Two(t.month) && d[3..] == tail;
    assert tail == Two(t.day) + ['/'] + Two(t.year % 100);
    FindCharAfter(Two(t.day), '/', Two(t.year % 100));
    assert tail[..2] == Two(t.day) && tail[3..] == Two(t.year % 100);
    ShortNumberOfTwo(t.month, 1, 12);
    ShortNumberOfTwo(t.day, 1, 31);
    ShortYearOfTwo(t.year);
  }

  lemma ParseClockOfFormat(t: DateTime)
    requires ValidDateTime(t)
    ensures ParseClock(FormatTime(t)) == Some((t.hour, t.minute))
  {
    var h12 := Hour12(t.hour);
    TwoValue(h12);
    var s := FormatTime(t);
    var clock := Two(h12) + [':'] + Two(t.minute);
    assert s == clock + (if t.hour < 12 then "AM" else "PM");
    assert s[..5] == clock && s[5..] == (if t.hour < 12 then "AM" else "PM");
    FindCharAfter(Two(h12), ':', Two(t.minute));
    assert clock[..2] == Two(h12) && clock[3..] == Two(t.minute);
    ShortNumberOfTwo(h12, 1, 12);
    ShortNumberOfTwo(t.minute, 0, 59);
  }

  /** Reading back what the log writes gives the same minute: `ParseTimestamp` inverts
      the `MM/DD/YY hh:mmAM|PM` rendering for every year the two-digit pivot reaches. */
  lemma ParseFormatRoundTrip(t: DateTime)
    requires ValidDateTime(t) && 1969 <= t.year <= 2068
    ensures ParseTimestamp(FormatDate(t), FormatTime(t)) == Some(t)
  {
    ParseDateOfFormat(t);
    ParseClockOfFormat(t);
  }

  /** The first entry of the repository's own test log: 08/21/18 12:14AM is
      2018-08-21T00:14Z. */
  lemma FirstTestLogTime(date: string, time: string)
    requires date == "08/21/18" && time == "12:14AM"
    ensures ParseTimestamp(date, time) == Some(DateTime(2018, 8, 21, 0, 14))
    ensures EpochSeconds(DateTime(2018, 8, 21, 0, 14)) == 1534810440
  {
    var t := DateTime(2018, 8, 21, 0, 14);
    ParseFormatRoundTrip(t);
    FirstTestLogText(t);
    TestLogEpoch(t);
  }

  /** The second entry: 08/23/18 02:45PM is 2018-08-23T14:45Z. */
  lemma SecondTestLogTime(date: string, time: string)
    requires date == "08/23/18" && time == "02:45PM"
    ensures ParseTimestamp(date, time) == Some(DateTime(2018, 8, 23, 14, 45))
    ensures EpochSeconds(DateTime(2018, 8, 23, 14, 45)) == 1535035500
  {
    var t := DateTime(2018, 8, 23, 14, 45);
    ParseFormatRoundTrip(t);
    SecondTestLogText(t);
    TestLogEpoch(t);
  }

  lemma FirstTestLogText(t: DateTime)
    requires t == DateTime(2018, 8, 21, 0, 14)
    ensures FormatDate(t) == "08/21/18" && FormatTime(t) == "12:14AM"
  {
    assert Two(8) == "08" && Two(21) == "21" && Two(18) == "18";
    assert Hour12(0) == 12 && Two(12) == "12" && Two(14) == "14";
  }

  lemma SecondTestLogText(t: DateTime)
    requires t == DateTime(2018, 8, 23, 14, 45)
    ensures FormatDate(t) == "08/23/18" && FormatTime(t) == "02:45PM"
  {
    assert Two(8) == "08" && Two(23) == "23" && Two(18) == "18";
    assert Hour12(14) == 2 && Two(2) == "02" && Two(45) == "45";
  }

  /** Seconds since the epoch of a minute in August 2018. */
  lemma TestLogEpoch(t: DateTime)
    requires t.year == 2018 && t.month == 8 && 1 <= t.day <= 31
    ensures EpochSeconds(t) == (17743 + t.day) * 86400 + t.hour * 3600 + t.minute * 60
  {
    assert DaysBeforeYear(2018) == 736694;
    assert DaysBeforeMonth(2018, 8) == 212;
  }
}

=== FILE: Transfer.dfy ===
/** The transfer area: the writable file system that holds local changes to the backup
    (src/fs_crashplanfs/crashplan.py:131-139). Only the behaviour of the calls the core
    makes on it is modelled: `exists`, `getinfo`, `listdir`, `makedirs`, `remove`,
    `removedir` and the walk over its entries. Paths are absolute and already
    normalised; the root `/` always exists and is a directory. */
module Transfer {
  import opened Wrappers
  import opened Paths

  /** What the transfer area knows about one resource: its kind and its modification
      time in whole seconds since the epoch. */
  datatype Entry = Entry(isDir: bool, modified: int)

  predicate Absolute(p: string) {
    p != [] && p[0] == '/'
  }

  /** Every non-root resource present locally, each strictly below a directory. */
  predicate Tree(entries: map<string, Entry>) {
    forall k :: k in entries ==>
      && Absolute(k) && k != "/"
      && (Dirname(k) == "/" || (Dirname(k) in entries && entries[Dirname(k)].isDir))
  }

  /** The names directly inside `p`. */
  function Children(entries: map<string, Entry>, p: string): set<string> {
    set k | k in entries && Dirname(k) == p :: Basename(k)
  }

  /** `listdir(p)`: the names directly inside a directory. */
  function ListLocal(entries: map<string, Entry>, p: string): (r: Result<set<string>, FsError>)
    ensures r.Ok? <==> p == "/" || (p in entries && entries[p].isDir)
    ensures r.Err? ==> (r.error == ResourceNotFound <==> p != "/" && p !in entries)
    ensures r.Err? ==> (r.error == DirectoryExpected <==> p in entries)
    ensures r.Ok? ==> forall k :: k in entries && Dirname(k) == p ==> Basename(k) in r.value
    ensures r.Ok? ==> forall n :: n in r.value ==> exists k :: k in entries && Dirname(k) == p && Basename(k) == n
  {
    if p != "/" && p !in entries then Err(ResourceNotFound)
    else if p != "/" && !entries[p].isDir then Err(DirectoryExpected)
    else Ok(Children(entries, p))
  }

  /** The directories `makedirs(p)` creates: `p` and every missing ancestor down from
      the nearest existing one, or DirectoryExpected when that one is a file. */
  function MissingDirs(entries: map<string, Entry>, p: string): (r: Result<set<string>, FsError>)
    requires Absolute(p)
    ensures r.Ok? ==> forall q :: q in r.value ==> Absolute(q) && q != "/" && q !in entries
    ensures r.Err? ==> r.error == DirectoryExpected
    decreases |p|
  {
    if p == "/" then Ok({})
    else if p in entries then (if entries[p].isDir then Ok({}) else Err(DirectoryExpected))
    else
      match MissingDirs(entries, Dirname(p))
      case Err(e) => Err(e)
      case Ok(s) => Ok(s + {p})
  }

  /** Every directory `makedirs` creates hangs below the root, an existing directory or
      another created directory; and `p` itself is created unless it already exists. */
  lemma {:induction false} MissingDirsHang(entries: map<string, Entry>, p: string)
    requires Absolute(p) && MissingDirs(entries, p).Ok?
    ensures var s := MissingDirs(entries, p).value;
      forall q :: q in s ==>
        Dirname(q) == "/" || Dirname(q) in s || (Dirname(q) in entries && entries[Dirname(q)].isDir)
    ensures p != "/" && p !in entries ==> p in MissingDirs(entries, p).value
    decreases |p|
  {
    if p != "/" && p !in entries {
      MissingDirsHang(entries, Dirname(p));
      var d := Dirname(p);
      assert d == "/" || d in MissingDirs(entries, d).value || (d in entries && entries[d].isDir);
    }
  }

  /** Adding the created directories keeps the entries a tree. */
  lemma MakeDirsKeepsTree(entries: map<string, Entry>, p: string, now: int)
    requires Tree(entries) && Absolute(p) && MissingDirs(entries, p).Ok?
    ensures Tree(entries + map q | q in MissingDirs(entries, p).value :: Entry(true, now))
  {
    MissingDirsHang(entries, p);
  }

  class TransferArea {
    var entries: map<string, Entry>

    predicate Valid()
      reads this
    {
      Tree(entries)
    }

    constructor ()
      ensures Valid() && entries == map[]
    {
      entries := map[];
    }

    /** `exists(p)`. */
    predicate Exists(p: string)
      reads this
    {
      p == "/" || p in entries
    }

    /** `isdir(p)`. */
    predicate IsDirectory(p: string)
      reads this
    {
      p == "/" || (p in entries && entries[p].isDir)
    }

    /** `makedirs(p)` at time `now`: DirectoryExists when `p` is a directory already,
        DirectoryExpected when `p` or its nearest existing ancestor is a file; otherwise
        `p` and all its missing ancestors become directories and nothing else changes. */
    method MakeDirs(p: string, now: int) returns (r: Result<(), FsError>)
      requires Valid() && Absolute(p)
      modifies this
      ensures Valid()
      ensures r == Err(DirectoryExists) <==> old(IsDirectory(p))
      ensures r == Err(DirectoryExpected) <==> !old(IsDirectory(p)) && old(MissingDirs(entries, p)).Err?
      ensures r.Err? ==> entries == old(entries)
      ensures r.Err? ==> r.error == DirectoryExists || r.error == DirectoryExpected
      ensures r.Ok? ==> !old(Exists(p)) && IsDirectory(p)
      ensures r.Ok? ==> old(entries).Keys <= entries.Keys
      ensures r.Ok? ==> forall k :: k in old(entries) ==> entries[k] == old(entries)[k]
      ensures r.Ok? ==> forall k :: k in entries && k !in old(entries) ==> entries[k] == Entry(true, now)
      ensures r.Ok? ==> entries == old(entries) + map q | q in old(MissingDirs(entries, p)).value :: Entry(true, now)
    {
      if IsDirectory(p) {
        return Err(DirectoryExists);
      }
      var plan := MissingDirs(entries, p);
      if plan.Err? {
        return Err(plan.error);
      }
      MakeDirsKeepsTree(entries, p, now);
      MissingDirsHang(entries, p);
      entries := entries + map q | q in plan.value :: Entry(true, now);
      r := Ok(());
    }

    /** `remove(p)`: only a file can be removed; nothing else changes. */
    method Remove(p: string) returns (r: Result<(), FsError>)
      requires Valid()
      modifies this
      ensures Valid()
      ensures r.Ok? <==> p in old(entries) && !old(entries)[p].isDir
      ensures r.Err? ==> entries == old(entries)
      ensures r.Err? ==> (r.error == ResourceNotFound <==> !old(Exists(p)))
      ensures r.Err? ==> (r.error == FileExpected <==> old(IsDirectory(p)))
      ensures r.Ok? ==> entries == old(entries) - {p}
    {
      if !Exists(p) {
        return Err(ResourceNotFound);
      }
      if IsDirectory(p) {
        return Err(FileExpected);
      }
      entries := entries - {p};
      r := Ok(());
    }

    /** `removedir(p)`: only an empty directory other than the root can be removed. */
    method RemoveDir(p: string) returns (r: Result<(), FsError>)
      requires Valid()
      modifies this
      ensures Valid()
      ensures r.Ok? <==> p in old(entries) && old(entries)[p].isDir && Children(old(entries), p) == {}
      ensures r.Err? ==> entries == old(entries)
      ensures p == "/" ==> r == Err(RemoveRootError)
      ensures p != "/" && r.Err? ==> (r.error == ResourceNotFound <==> p !in old(entries))
      ensures p != "/" && r.Err? ==> (r.error == DirectoryExpected <==> p in old(entries) && !old(entries)[p].isDir)
      ensures p != "/" && p in old(entries) && old(entries)[p].isDir && Children(old(entries), p) != {} ==>
        r == Err(DirectoryNotEmpty)
      ensures r.Ok? ==> entries == old(entries) - {p}
    {
      if p == "/" {
        return Err(RemoveRootError);
      }
      if p !in entries {
        return Err(ResourceNotFound);
      }
      if !entries[p].isDir {
        return Err(DirectoryExpected);
      }
      if Children(entries, p) != {} {
        return Err(DirectoryNotEmpty);
      }
      forall k | k in entries && k != p
        ensures Dirname(k) != p
      {
        assert Basename(k) !in Children(entries, p);
      }
      entries := entries - {p};
      r := Ok(());
    }
  }
}

=== FILE: Wrappers.dfy ===
/** Option and Result values, and the filesystem errors the core raises. */
module Wrappers {

  datatype Option<+T> = None | Some(value: T)

  datatype Result<+T, +E> = Ok(value: T) | Err(error: E)

  /** The exceptions of the PyFilesystem2 error hierarchy that the core raises or lets
      through, plus the ValueError of `int()` and `strptime` on a malformed log line. */
  datatype FsError =
    | ResourceNotFound
    | DirectoryExpected
    | FileExpected
    | DirectoryExists
    | FileExists
    | DirectoryNotEmpty
    | RemoveRootError
    | IllegalBackReference
    | CreateFailed
    | ValueError
}
